=== FILE: README.md ===
# Smart Auto Complete, modelled in Dafny

A model of the jQuery Smart Auto Complete plugin (`$(field).smartAutoComplete(options)`).
It covers the parts of the plugin that are logic rather than DOM plumbing:

- **The default filter.** The query is escaped so that every regular-expression metacharacter stands for itself. Each array element is then matched case-insensitively (`$.grep` with `new RegExp(escaped, "i")`). The matches are cut with `results.splice(0, maxResults)`. A string source becomes a URL request instead, and any other source does nothing (modules `Matching`, `JsArray`, `Filter`).
- **Option resolution.** `$.extend(default_options, stored, passed)` merges the options: the last writer wins and `undefined` values are skipped. The options record the field as their `context`. A field with no configured results container is pointed at the page's single shared default container, which is created only when the page has none (module `Options`).
- **The controller.** These are the handlers bound for `keyIn` and `filterReady` and for the four overridable events `showResults`, `hideResults`, `noMatch` and `itemSelect`. Each one is a pure transition of a `Field` record: stored options, field value, container content, container visibility, and listener count per event. Each transition also returns the steps it took: events fired, filter calls, requests issued, built-in defaults run, and exceptions thrown (module `Controller`).

Concrete runs on the inputs of the repository's own test suite are in module `Scenarios`.

How JavaScript is represented:
- Values are a `Value` datatype (`Undefined`, `Null`, `Bool`, `Num` for integers, `Str`, `Arr` of strings, `Fn`, `Elem`), with JavaScript truthiness.
- Options are a `map<string, Value>`, and a missing key reads as `undefined`.
- A function held in the options is either one of the plugin's built-ins, whose effect is modelled under every key that holds it (the corners are listed under "## Left out"), or a user function identified by a number. A user function's effects are outside the model. When used as a result formatter, its output comes from a parameter (`Formatters`).
- Calling an option that is not a function throws a TypeError. This appears as an `Outcome.Thrown` that ends all enclosing handlers.
- The override rule is the predicate `Controller.DefaultRuns`: the built-in runs only when at most one listener is bound for the event.

## Model

| member | source | states |
|---|---|---|
| `Matching.IsMeta` | jquery.smart_autocomplete.js:51 | no contract: the character class `[-[\]{}()*+?.,\\^$\|#\s]` of the escaping regular expression; `Matching.Escape` and `Matching.EscapeRoundTrip` state what it is for |
| `Matching.Escape` | jquery.smart_autocomplete.js:51 | the escaped query is as long as the query plus one backslash per metacharacter of `-[]{}()*+?.,\^$\|#` and JavaScript `\s` |
| `Matching.ParseLiteral` | jquery.smart_autocomplete.js:51 | reading a pattern as literal atoms never yields more characters than the pattern has |
| `Matching.EscapeRoundTrip` | jquery.smart_autocomplete.js:51 | reading the escaped query back as literal atoms gives the query: no metacharacter is left with its pattern meaning and nothing is lost |
| `Matching.ParseLiteralOnlyFromEscape` | jquery.smart_autocomplete.js:51 | a pattern that `ParseLiteral` (the grammar of escaped patterns) reads back as a query is exactly that query's escaped form |
| `Matching.EscapeCharacterizesLiteralPatterns` | jquery.smart_autocomplete.js:51 | both directions: a pattern reads back as the query under `ParseLiteral` (the grammar of escaped patterns) iff it is the query's escaped form; plain RegExp syntax also reads some unescaped patterns such as `a-b` literally, which this grammar rejects |
| `Matching.LowerEqualIff` | jquery.smart_autocomplete.js:51 | under ASCII folding, the model's stand-in for the `i` flag, two characters compare equal iff they are the same character or the same ASCII letter in its two cases; under it every other character compares only with itself |
| `Matching.FoldIdempotent` | jquery.smart_autocomplete.js:51 | folding leaves no ASCII capital behind, so folding twice is folding once |
| `Matching.Contains` | jquery.smart_autocomplete.js:54 | the search succeeds iff the pattern occurs at some position of the text |
| `Matching.RegexTest` | jquery.smart_autocomplete.js:51-54 | the compiled escaped, case-insensitive test succeeds iff the case-folded query is a substring of the case-folded candidate |
| `Matching.Grep` | jquery.smart_autocomplete.js:53-55 | the kept candidates are exactly the source's candidates that match, and there are no more of them than in the source |
| `Matching.GrepIsSubsequence` | jquery.smart_autocomplete.js:53-55 | the kept candidates are a subsequence of the source: nothing is added or reordered |
| `Matching.GrepDistributes` | jquery.smart_autocomplete.js:53-55 | filtering a concatenation is concatenating the filtered parts, so each candidate is decided on its own |
| `Matching.GrepSingleton` | jquery.smart_autocomplete.js:53-55 | one candidate is kept iff it matches; with the previous row this fixes the result for every source |
| `Matching.GrepEmptyIffNoMatch` | jquery.smart_autocomplete.js:53-55 | the filter yields nothing iff no candidate matches |
| `Matching.EmptyQueryKeepsAll` | jquery.smart_autocomplete.js:51-55 | the empty query keeps every candidate |
| `Matching.MatchIgnoresCase` | jquery.smart_autocomplete.js:51 | matching depends only on the ASCII-folded query and candidate |
| `JsArray.ActualStart` | jquery.smart_autocomplete.js:76 | splice's start index is clamped into the array |
| `JsArray.ActualDeleteCount` | jquery.smart_autocomplete.js:76 | splice's delete count never reaches past the end |
| `JsArray.Splice` | jquery.smart_autocomplete.js:76 | the removed part is the window of `actualDeleteCount` elements at `actualStart`; removed and remaining parts together are as long as the array; a count of zero or less removes nothing |
| `JsArray.SpliceRoundTrip` | jquery.smart_autocomplete.js:76 | putting the removed part back where it was taken rebuilds the array |
| `JsArray.Truncate` | jquery.smart_autocomplete.js:76 | `splice(0, n)` returns a prefix of length `min(max(n, 0), len)` |
| `JsArray.NegativeCapKeepsNothing` | jquery.smart_autocomplete.js:76 | a negative cap keeps nothing, so no negative value means "unlimited" |
| `JsArray.LargeCapKeepsAll` | jquery.smart_autocomplete.js:76 | a cap at or past the length keeps everything |
| `Options.DefaultValues` | jquery.smart_autocomplete.js:59-65 | the defaults are minCharLimit 2, maxResults -1, delay 300, typeAhead, disabled and forceSelect false, and no results container |
| `Options.Defaults` | jquery.smart_autocomplete.js:59-144 | every default is defined, every function among them is a built-in, the defaults are not disabled, and they hold no `context`, `resultsContainer` or `source` |
| `Options.Truthy` | jquery.smart_autocomplete.js:182 | no contract: JavaScript truthiness, also used at lines 155, 179 and 197; `Options.FalsyValues` lists the falsy values |
| `Options.FalsyValues` | jquery.smart_autocomplete.js:182 | the falsy values are exactly `undefined`, `null`, `false`, `0` and the empty string |
| `Options.Extend` | jquery.smart_autocomplete.js:151 | `$.extend` keeps the target's keys and adds the source's defined ones; defined source values win and `undefined` ones are skipped |
| `Options.Merge` | jquery.smart_autocomplete.js:151 | per key, the merge reads the passed value if defined, else the stored one if defined, else the base one |
| `Options.MergePrecedence` | jquery.smart_autocomplete.js:151 | per key, the resolved value is the passed one if defined, else the stored one if defined, else the default |
| `Options.AssignContainer` | jquery.smart_autocomplete.js:154-166 | a truthy container is kept unchanged; otherwise the option becomes the shared default container, and the page gains one only if it had none |
| `Options.Attach` | jquery.smart_autocomplete.js:149-169 | the stored options have the field as context, a truthy container, and every other key as the merge resolves it |
| `Options.AttachContainerRule` | jquery.smart_autocomplete.js:154-166 | a configured container is never replaced, a missing one becomes the shared default, and the page never holds more than one default container |
| `Options.ReattachKeepsContainer` | jquery.smart_autocomplete.js:151-166 | attaching again, when the second call passes no `resultsContainer`, keeps the container chosen the first time and creates no second default container |
| `Options.AttachAllAsWritten` | jquery.smart_autocomplete.js:149-169 | as written, every field of one call ends up with the same options object |
| `Options.SharedOptionsLeak` | jquery.smart_autocomplete.js:151-152 | as written, one field's stored option leaks into the next field, and the first field's context becomes the second field |
| `Options.AttachAll` | jquery.smart_autocomplete.js:149-169 | corrected: fields outside the selection keep their data and the page still has at most one default container |
| `Options.AttachAllPerField` | jquery.smart_autocomplete.js:149-169 | corrected: every selected field has its own context and its own merge of defaults, its stored options and the passed ones |
| `Options.AttachThenGet` | jquery.smart_autocomplete.js:44-48 | corrected: reading the options back with the getter after attaching gives the first field's own options, with that field as context and every other key as the merge resolves it |
| `Options.SharedFoldContext` | jquery.smart_autocomplete.js:151-152 | as written, the shared options object's context ends as the field attached last |
| `Options.SharedFold` | jquery.smart_autocomplete.js:149-169 | as written, one object threaded through every field: the page never gains a second default container and, after any field, the object holds a truthy container |
| `Options.AsWrittenGetSeesLastField` | jquery.smart_autocomplete.js:44-48 | as written, the getter on a selection reports the last field as context, so with two or more distinct fields the first field's options point at another field |
| `Filter.SourceOf` | jquery.smart_autocomplete.js:73-79 | no contract: the `$.type` dispatch on the source; `Filter.DefaultFilter` states what each kind of source leads to (matches, one request, or nothing) |
| `Filter.TargetOf` | jquery.smart_autocomplete.js:76-88 | no contract: where `$(context).trigger` delivers, a field when the context is that field's element and no field otherwise; `Filter.DefaultFilter`, `Filter.ElementReceiverReachesNoField` and `Controller.Deliver` state the consequences |
| `Filter.ToInteger` | jquery.smart_autocomplete.js:76-88 | no contract: the count `splice` reads from `maxResults`; `Filter.ArraySourceEmitsTruncatedMatches`, `Filter.DefaultCapEmitsNothing` and `Filter.Settle` state the resulting cut |
| `Filter.DefaultFilter` | jquery.smart_autocomplete.js:69-96 | an array source emits matching items, as a subsequence of the source, to `$(this.context)`; a string source issues one request with the query as `term`; any other source does nothing |
| `Filter.PrefixIsSubsequence` | jquery.smart_autocomplete.js:76 | cutting the matches to a prefix keeps them a subsequence of the source |
| `Filter.Settle` | jquery.smart_autocomplete.js:83-92 | a successful reply emits, to the target captured at request time, a prefix of the reply of length `min(max(cap, 0), len)` for the cap captured then; a failed one emits nothing |
| `Filter.ArraySourceEmitsTruncatedMatches` | jquery.smart_autocomplete.js:73-77 | run on the options, an array source emits exactly `Truncate(Grep(query, items), maxResults)` to the options' context |
| `Filter.DefaultCapEmitsNothing` | jquery.smart_autocomplete.js:61-76 | with the default maxResults of -1, an array source always emits an empty list |
| `Filter.ElementReceiverReachesNoField` | jquery.smart_autocomplete.js:69-92 | run on the field element, the filter has no context, so neither its results nor a request's reply reach any field |
| `Controller.Clear` | jquery.smart_autocomplete.js:118-140 | whatever `clearResults` holds runs: the built-in `clearResults` empties the container and changes nothing else; the built-in `showResults` or `hideResults` there shows or hides; the built-in `itemSelect` there writes the empty text to the context; the built-in `noMatch` there calls itself without end and throws; a user function changes nothing modelled; a non-function throws |
| `Controller.NoMatchDefault` | jquery.smart_autocomplete.js:118-127 | the built-in `noMatch` leaves exactly the "Sorry, No Results Found" item in the container when `clearResults` is the built-in one; it keeps the field value and the visibility unless `clearResults` holds `itemSelect`, `showResults` or `hideResults` |
| `Controller.RunBuiltin` | jquery.smart_autocomplete.js:98-140 | a built-in run by a listener, under whichever key holds it: it keeps the field's identity, options and listeners; only `noMatch` can throw; the built-in filter and formatter change nothing; `itemSelect` writes the selected item's text under `itemSelect` and the empty text under `hideResults` or `noMatch` |
| `Controller.DefaultFormat` | jquery.smart_autocomplete.js:67 | the built-in formatter wraps the result in `<li>` and `</li>` and leaves it otherwise as it is |
| `Controller.DefaultRuns` | jquery.smart_autocomplete.js:239-272 | no contract: the override rule, read at lines 239, 250, 261 and 272 as "more than one listener"; `Controller.OverrideRule` and `Controller.Dispatch` state what it decides |
| `Controller.CallOption` | jquery.smart_autocomplete.js:242-275 | calling the stored option never changes the field's identity, options or listeners; a value that is not a function throws; a user function's effect is opaque; only the built-in `noMatch` can throw from inside a function; an option that is no content-changing built-in leaves the content alone |
| `Controller.Dispatch` | jquery.smart_autocomplete.js:234-276 | the event fires first; the option's function runs iff the event has at most one listener; with more, nothing in the state changes |
| `Controller.FormatAll` | jquery.smart_autocomplete.js:207-214 | one formatted fragment per result, in result order; with the built-in formatter each fragment is `"<li>" + result + "</li>"` |
| `Controller.FormatsResults` | jquery.smart_autocomplete.js:207-214 | no contract: the result formatters that return a fragment per result, the built-in one and user functions; `Controller.OnFilterReady` states what the others do |
| `Controller.OnFilterReady` | jquery.smart_autocomplete.js:190-231 | disabled: nothing happens; no results: `noMatch` fires and `showResults` does not, and the field value and the visibility stay as they were unless `noMatch` or `clearResults` holds `itemSelect`, `showResults` or `hideResults`; otherwise a non-function formatter or the built-in `noMatch` as formatter throws before anything changes, and with the built-in `clearResults` and a `showResults` that leaves the content alone, `showResults` fires and the container becomes exactly the formatted results (replacing earlier content) for the built-in formatter or a user function, and empty for any other built-in, whose `undefined` results `$.map` drops |
| `Controller.Render` | jquery.smart_autocomplete.js:218-230 | clear, append, `showResults`: never fires `noMatch` or calls a filter; a throw before `showResults` leaves the state as it was; with the built-in `clearResults` it fires `showResults`, keeps the field value, and, when `showResults` holds no content-changing built-in, leaves exactly the new fragments in the container |
| `Controller.FireFilterReady` | jquery.smart_autocomplete.js:190-231 | triggering `filterReady` fires it first and calls no filter |
| `Controller.Deliver` | jquery.smart_autocomplete.js:76-88 | `filterReady` fires only for results addressed to this field; results addressed elsewhere change nothing |
| `Controller.KeyInWith` | jquery.smart_autocomplete.js:176-187 | disabled: nothing happens; a non-function filter throws; otherwise the first step is one call of the filter with the query and the configured source, and no other filter call follows |
| `Controller.RunAsFilter` | jquery.smart_autocomplete.js:98-140 | another built-in held as `filter`: on the field element only the built-in `noMatch` does anything, and it throws, since the element has no `clearResults`; on the options object `showResults`, `hideResults`, `clearResults` and `noMatch` act on the container as their listeners do |
| `Controller.NoMatchAsFilterThrows` | jquery.smart_autocomplete.js:118-122 | as written, with the built-in `noMatch` held as `filter`, every keyIn on an enabled field calls it and throws, leaving the field as it was |
| `Controller.OnKeyInAsWritten` | jquery.smart_autocomplete.js:186 | as written, with the default filter run on the element, a keyIn never fires `filterReady` and leaves the state unchanged |
| `Controller.OnKeyIn` | jquery.smart_autocomplete.js:176-187 | corrected: an enabled field with the default filter, an array source and the field itself as its context fires `filterReady` right after the filter call |
| `Controller.OnRequestSettled` | jquery.smart_autocomplete.js:87-91 | a failed request changes nothing |
| `Controller.Trigger` | jquery.smart_autocomplete.js:176-276 | as written: no event changes the field's identity, options or listeners; each event fires first; a keyIn never fires `filterReady` and leaves the field unchanged; a failed request changes nothing |
| `Controller.TriggerCorrected` | jquery.smart_autocomplete.js:176-187 | corrected: only keyIn differs from the as-written events; an enabled field with the default filter, an array source and itself as context fires `filterReady` right after the filter call |
| `Controller.NoFilterCallsCountsZero` | jquery.smart_autocomplete.js:186 | a step list without filter calls counts zero of them |
| `Controller.KeyInCallsFilterOnce` | jquery.smart_autocomplete.js:176-187 | as written and corrected: disabled, keyIn only fires and changes nothing; enabled with a function filter, exactly one filter call, with the query and the configured source |
| `Controller.KeyInWithCallsFilterOnce` | jquery.smart_autocomplete.js:176-187 | with either `this`, the keyIn listener behind the fired event calls the filter exactly once, or not at all when disabled |
| `Controller.OverrideRule` | jquery.smart_autocomplete.js:238-275 | the built-in runs iff the listener count is at most 1; otherwise the state is untouched |
| `Controller.DefaultHandlerEffects` | jquery.smart_autocomplete.js:98-140 | `showResults` makes the container visible, `hideResults` hides it, `noMatch` leaves only the notice; `itemSelect` sets the field to the item's text when the stored context is the field, and leaves the field alone when the context is another element; nothing else changes |
| `Controller.ForeignBuiltinRuns` | jquery.smart_autocomplete.js:242-275 | a listener runs whatever its option holds: the built-in `showResults`, `hideResults` or `clearResults` stored under another event's key shows, hides or empties the container there |
| `Controller.NoMatchAsClearThrows` | jquery.smart_autocomplete.js:118-122 | with the built-in `noMatch` stored as `clearResults`, every run of the built-in `noMatch` throws and leaves the state as it was |
| `Controller.KeyInDeliversMatches` | jquery.smart_autocomplete.js:69-77 | corrected keyIn with an array source runs `filterReady` with `Truncate(Grep(query, items), maxResults)` |
| `Controller.KeyInWithBuiltinFilter` | jquery.smart_autocomplete.js:176-187 | with the built-in filter, the keyIn listener is the filter call followed by the delivery of the filter's effect |
| `Controller.DeliverToSelf` | jquery.smart_autocomplete.js:76 | results addressed to this field run its `filterReady` handling |
| `Controller.AsWrittenRequestReachesNoField` | jquery.smart_autocomplete.js:83-92 | as written, a URL source still issues the request, but its reply reaches no field |
| `Scenarios.WordsMatchingT` | spec/core/jquery.smart_autocomplete_spec.js:342-360 | `t` matches test, table, tea and tree, but not abc |
| `Scenarios.AllMatchingKept` | jquery.smart_autocomplete.js:53-55 | a list whose every candidate matches passes the filter whole |
| `Scenarios.KeepsAllButLast` | jquery.smart_autocomplete.js:53-55 | matching candidates followed by a non-matching one come back without it, in order |
| `Scenarios.DefaultFilterExample` | spec/core/jquery.smart_autocomplete_spec.js:352-360 | `['test','table','tea','tree','abc']` with query `t` and cap 2 gives `['test','table']` |
| `Scenarios.AttachStoresDefaults` | spec/core/jquery.smart_autocomplete_spec.js:16-38 | attaching with no options stores the documented defaults |
| `Scenarios.AttachPassedWins` | spec/core/jquery.smart_autocomplete_spec.js:59-64 | a passed `maxResults` of 10 overrides the default |
| `Scenarios.AttachStoredWins` | spec/core/jquery.smart_autocomplete_spec.js:44-50 | a value stored on the element beforehand overrides the default |
| `Scenarios.FilterReadyReplacesEarlierResults` | spec/core/jquery.smart_autocomplete_spec.js:136-142 | after `filterReady` with a, b, c the container's HTML is `abc`, whatever it held before, with the built-in `clearResults` and a `showResults` that leaves the content alone |
| `Scenarios.EmptyResultsFireNoMatch` | spec/core/jquery.smart_autocomplete_spec.js:170-178 | an empty result list fires `noMatch` but not `showResults`; with the test's own `noMatch` listener bound the built-in does not run and the field is unchanged |
| `Scenarios.NoMatchShowsNotice` | spec/core/jquery.smart_autocomplete_spec.js:374-381 | calling the built-in `noMatch` directly leaves only the notice: one list item whose text reads "Sorry, No Results Found" |
| `Scenarios.CustomFilterReceivesQueryAndSource` | spec/core/jquery.smart_autocomplete_spec.js:103-108 | a custom filter is called with `t` and the source `test` |
| `Scenarios.SelectingSetsFieldValue` | spec/core/jquery.smart_autocomplete_spec.js:423-431 | calling the built-in `itemSelect` directly on a field attached on its own sets the field value to the item's text |

## Code versus documentation

- The header comment at jquery.smart_autocomplete.js:13 calls the default `maxResults` of -1 "unlimited". The code passes it to `splice(0, -1)`, which removes nothing and so returns an empty list. The model follows the code: `JsArray.NegativeCapKeepsNothing` and `Filter.DefaultCapEmitsNothing`.
- An `undefined` or `null` source, or any other value that is neither an array nor a string, is not matched as an empty list that leads to `noMatch`. `$.type` reports it as neither, so the default filter triggers nothing at all. The model follows the code: `Filter.DefaultFilter` returns `NoEffect`. An empty array and an empty string are different: an empty array emits an empty list, which leads to `noMatch`, and an empty string issues a request.

## Left out

- DOM event plumbing is left out: the `keyup` binding that re-triggers `keyIn` and the click delegation on the results container. The delegation selector `smart_autocomplete_result` has no leading `.`, so it matches nothing. Events enter the model as `Controller.Event` values.
- Positioning in the built-in `showResults` is left out, because it is layout arithmetic on DOM geometry. Only the visibility flag is modelled.
- Container content and visibility are kept per field. In the source, every field without a configured container points at the one shared default container, so one field's `filterReady`, `noMatch`, `showResults` or `hideResults` changes what another field shows. The model describes one field at a time and does not track that sharing; its container state is exact for a field with a container of its own.
- A built-in stored under another option's key runs in the model when it is `showResults`, `hideResults`, `clearResults`, `noMatch`, or `itemSelect` under a listener that passes no item. This covers the built-ins held as `filter` or `resultFormatter`. Three corners are left out. The built-in `itemSelect` held as `filter` or `resultFormatter` reads the query or the result as a jQuery selector. A malformed selector makes it throw, and under the corrected keyIn handler it writes that selection's text to the field. The model treats it as writing nothing and throwing nothing. The built-in `filter` or `itemSelect` stored as `showResults` receives the container and the raw results as its arguments. The filter would match against them and `itemSelect` would write the container's text; both do nothing in the model.
- `itemSelect` writing to another element: when the stored context is another field (the shared-options bug), the value written there is outside the modelled field's state and is not tracked.
- The `$.ajax` call is network I/O. Its reply is an input (`Filter.Reply`) delivered by `Controller.OnRequestSettled`. Out-of-order replies to overlapping requests are possible, because each reply is delivered whenever it is given.
- jQuery's listener registry is replaced by a listener-count map per event. The model assumes the plugin's own listeners are bound once per field. Attaching the plugin twice to the same field binds them again, which raises every count and switches every built-in off; this is not modelled.
- What user-supplied functions do is not modelled: custom filters, formatters, handlers and other listeners. Only their calls are. Formatter output is an opaque string, and `$.map` dropping `null`/`undefined` formatter results is not modelled.
- `addClass` on the formatted fragments is left out. So is HTML parsing of fragments: the container holds the fragments as strings, and its HTML is their concatenation.
- Case-insensitive matching uses ASCII folding instead of the case mapping of the `i` flag, which upper-cases every character with `toUpperCase` and so also pairs letters such as `é` and `É`. Strings are sequences of Unicode scalar values rather than UTF-16 code units.
- `Matching.LowerEqualIff`: it is stated for ASCII folding, so it does not describe the `i` flag's pairing of letters outside ASCII, because the model does not implement Unicode case mapping.
- Numbers are integers. `NaN`, fractional values and numeric strings are left out. `Filter.ToInteger` reads any value other than a number or boolean as 0, which matches `undefined`.
- `minCharLimit`, `delay`, `typeAhead` and `forceSelect` are stored and merged but never acted on by the code, so no gating or debounce is modelled.
- Only the source types the plugin distinguishes are modelled. Array elements are strings; element pairs such as `["Apple", 1]`, which the regular expression sees through their string conversion, are left out.
- The field's `disabled` flag is not a separate state field. It is read from the stored options at event time, as the handlers do.
- `return false` from a jQuery handler also stops propagation and prevents the default action; this is not modelled.

## Findings

| source | as written | input that shows it | evidently intended | confidence | as-written member | corrected member |
|---|---|---|---|---|---|---|
| jquery.smart_autocomplete.js:186 | `filter.apply(this, ...)` runs the filter with the field element as `this`. The default filter then reads `this.context` and `this.maxResults` (lines 70-71) as `undefined` and triggers `filterReady` on `$(undefined)`, an empty selection. | an enabled field with the default filter and source `['test']`; keyIn with query `t` | the filter runs on the stored options, so matches reach `filterReady` and are rendered | not executed; high | `Controller.OnKeyInAsWritten` | `Controller.OnKeyIn` |
| jquery.smart_autocomplete.js:151 | `$.extend(default_options, ...)` writes into the single defaults object created by the call. Every field of a multi-element selection is extended into, and stores, that same object. | fields 1 and 2 attached in one call, field 1 holding `{minCharLimit: 4}`: field 2 gets minCharLimit 4, and field 1's context becomes field 2 | each field gets fresh defaults merged with its own stored options and the passed ones | not executed; high | `Options.AttachAllAsWritten` | `Options.AttachAll` |

=== FILE: controller.dfy ===
/** The per-field controller: the handlers the plugin binds for `keyIn`,
    `filterReady` and the four overridable lifecycle events, each a pure
    transition of the field's state. The state keeps the field's stored
    options, its value, the results container's content and visibility, the
    number of listeners bound per event; each transition also reports the
    steps it took (events fired, filters called, requests issued, built-in
    defaults run, exceptions thrown). Functions held in options are either the plugin's built-ins,
    whose effects are modelled, or user functions, whose effects are not. */
module Controller {
  import opened Wrappers
  import opened Options
  import Filter
  import JsArray
  import Matching

  /** The four events whose built-in behaviour a listener can override. */
  datatype Lifecycle = ShowResults | HideResults | NoMatch | ItemSelect

  datatype EventName = KeyIn | FilterReady | Overridable(event: Lifecycle)

  datatype Step =
    | Fired(name: EventName)
    | FilterCalled(filter: FnRef, query: string, source: Value)
    | RequestIssued(request: Filter.Request)
    | DefaultRan(event: Lifecycle)
    | Threw(during: EventName)

  datatype Field = Field(
    self: nat,
    options: OptionMap,
    value: string,
    container: seq<string>,
    visible: bool,
    listeners: map<EventName, nat>)

  /** A handler either returns or throws, and reports the steps it took.
      An exception ends every enclosing handler at once and leaves the state
      as it was when it was thrown. */
  datatype Outcome = Done(field: Field, steps: seq<Step>) | Thrown(field: Field, steps: seq<Step>)

  /** The behaviour of every function the model does not interpret, as a
      result formatter: what it returns for a result. */
  type Formatters = (FnRef, string) -> string

  const NoResultsItem: string := "<li class='_smart_autocomplete_no_result'>Sorry, No Results Found</li>"

  /** The built-in result formatter: the result wrapped in one list item. */
  function DefaultFormat(r: string): (h: string)
    ensures |h| == |r| + 9
    ensures h[..4] == "<li>" && h[|h| - 5..] == "</li>" && h[4..|h| - 5] == r
  {
    "<li>" + r + "</li>"
  }

  /** The container's HTML: its fragments in order. */
  function Html(c: seq<string>): string {
    if c == [] then "" else c[0] + Html(c[1..])
  }

  function OptionKey(e: Lifecycle): string {
    match e
    case ShowResults => "showResults"
    case HideResults => "hideResults"
    case NoMatch => "noMatch"
    case ItemSelect => "itemSelect"
  }

  function BuiltinFor(e: Lifecycle): Builtin {
    match e
    case ShowResults => ShowFn
    case HideResults => HideFn
    case NoMatch => NoMatchFn
    case ItemSelect => SelectFn
  }

  predicate Disabled(f: Field) {
    Truthy(Lookup(f.options, "disabled"))
  }

  function ListenerCount(listeners: map<EventName, nat>, e: EventName): nat {
    if e in listeners then listeners[e] else 0
  }

  /** The override rule: the plugin's own listener runs the built-in only
      when it is the only listener bound for the event. Attaching the plugin
      always binds that listener, so in the source the count is at least 1
      for each of the four events; a count of 0 in the model reads like 1. */
  predicate DefaultRuns(listeners: map<EventName, nat>, e: Lifecycle) {
    ListenerCount(listeners, Overridable(e)) <= 1
  }

  /** What a transition may not touch: the field, its options, its listeners. */
  predicate SameSetup(g: Field, f: Field) {
    g.self == f.self && g.options == f.options && g.listeners == f.listeners
  }

  predicate NoFilterCalls(t: seq<Step>) {
    forall i :: 0 <= i < |t| ==> !t[i].FilterCalled?
  }

  /** The built-ins that act on the results container alone, whatever
      arguments they are given and whichever key holds them. */
  predicate ActsOnContainer(b: Builtin) {
    b == ShowFn || b == HideFn || b == ClearFn
  }

  /** What those built-ins do: show, hide or empty the container. */
  function ContainerEffect(f: Field, b: Builtin): Field
    requires ActsOnContainer(b)
  {
    match b
    case ShowFn => f.(visible := true)
    case HideFn => f.(visible := false)
    case ClearFn => f.(container := [])
  }

  /** An option value that shows or hides the container when called. */
  predicate ShowsOrHides(v: Value) {
    v == Fn(BuiltinFn(ShowFn)) || v == Fn(BuiltinFn(HideFn))
  }

  /** An option value that, when called, leaves both the field's value and
      the container's visibility alone. */
  predicate KeepsValueAndVisibility(v: Value) {
    v != Fn(BuiltinFn(SelectFn)) && !ShowsOrHides(v)
  }

  /** An option value that, when called, leaves the container's content
      alone: anything but the built-in `clearResults` and `noMatch`. */
  predicate KeepsContainer(v: Value) {
    v != Fn(BuiltinFn(ClearFn)) && v != Fn(BuiltinFn(NoMatchFn))
  }

  /** Calling the option under `key` leaves the field's value and the
      container's visibility alone: neither it nor, when it is the built-in
      `noMatch`, the `clearResults` it calls touches them. */
  predicate CallKeepsValueAndVisibility(o: OptionMap, key: string) {
    && KeepsValueAndVisibility(Lookup(o, key))
    && (Lookup(o, key) == Fn(BuiltinFn(NoMatchFn)) ==> KeepsValueAndVisibility(Lookup(o, "clearResults")))
  }

  /** The built-in `itemSelect` with the item's text `text`: it sets the
      value of `$(this.context)`, which is this field when the options'
      context is this field and some other element (outside this field's
      state) otherwise. Called with no item, `$(undefined).text()` is the
      empty string. */
  function SelectWith(f: Field, text: string): Field {
    if Filter.TargetOf(Lookup(f.options, "context")) == Filter.FieldTarget(f.self)
    then f.(value := text)
    else f
  }

  /** `this.clearResults()` on the stored options: whatever function the
      option holds runs. The built-in `noMatch` held there calls
      `clearResults` again without end, which overflows the stack and
      throws; the built-in `itemSelect` held there selects no item; the
      built-in filter held there finds no source and the built-in formatter
      only returns a string; a value that is not a function throws a
      TypeError. */
  function Clear(f: Field, during: EventName): (r: Outcome)
    ensures SameSetup(r.field, f)
    ensures Lookup(f.options, "clearResults") != Fn(BuiltinFn(SelectFn)) ==> r.field.value == f.value
    ensures !ShowsOrHides(Lookup(f.options, "clearResults")) ==> r.field.visible == f.visible
    ensures Lookup(f.options, "clearResults") == Fn(BuiltinFn(ClearFn)) ==> r == Done(f.(container := []), [])
    ensures Lookup(f.options, "clearResults") == Fn(BuiltinFn(SelectFn)) ==> r == Done(SelectWith(f, ""), [])
    ensures Lookup(f.options, "clearResults") == Fn(BuiltinFn(ShowFn)) ==> r == Done(f.(visible := true), [])
    ensures Lookup(f.options, "clearResults") == Fn(BuiltinFn(HideFn)) ==> r == Done(f.(visible := false), [])
    ensures Lookup(f.options, "clearResults") == Fn(BuiltinFn(FilterFn)) ==> r == Done(f, [])
    ensures Lookup(f.options, "clearResults") == Fn(BuiltinFn(FormatFn)) ==> r == Done(f, [])
    ensures r.Done? ==> r.steps == []
    ensures r.Thrown? ==> r == Thrown(f, [Threw(during)])
    ensures !Lookup(f.options, "clearResults").Fn? ==> r == Thrown(f, [Threw(during)])
    ensures Lookup(f.options, "clearResults") == Fn(BuiltinFn(NoMatchFn)) ==> r == Thrown(f, [Threw(during)])
    ensures Lookup(f.options, "clearResults").Fn? && Lookup(f.options, "clearResults").fn.UserFn? ==> r == Done(f, [])
  {
    match Lookup(f.options, "clearResults")
    case Fn(BuiltinFn(b)) =>
      if ActsOnContainer(b) then Done(ContainerEffect(f, b), [])
      else if b == NoMatchFn then Thrown(f, [Threw(during)])
      else if b == SelectFn then Done(SelectWith(f, ""), [])
      else Done(f, [])
    case Fn(UserFn(_)) => Done(f, [])
    case _ => Thrown(f, [Threw(during)])
  }

  /** The built-in `noMatch`: clear, then append the notice. */
  function NoMatchDefault(f: Field, during: EventName): (r: Outcome)
    ensures SameSetup(r.field, f)
    ensures KeepsValueAndVisibility(Lookup(f.options, "clearResults")) ==>
              r.field.value == f.value && r.field.visible == f.visible
    ensures r.Done? ==> r.steps == []
    ensures r.Thrown? ==> r.steps == [Threw(during)]
    ensures Lookup(f.options, "clearResults") == Fn(BuiltinFn(ClearFn)) ==>
              r == Done(f.(container := [NoResultsItem]), [])
  {
    match Clear(f, during)
    case Done(g, _) => Done(g.(container := g.container + [NoResultsItem]), [])
    case Thrown(g, steps) => Thrown(g, steps)
  }

  /** A built-in run by the listener of event `e`, whichever option key
      holds it. The listeners of `hideResults` and `noMatch` pass no
      argument, `itemSelect` passes the selected item, `showResults` passes
      the container and the raw results. The built-in filter finds no array
      or string source among those arguments and does nothing; the built-in
      formatter only returns a string. */
  function RunBuiltin(f: Field, b: Builtin, e: Lifecycle, item: string): (r: Outcome)
    ensures SameSetup(r.field, f)
    ensures r.Done? ==> r.steps == []
    ensures r.Thrown? ==> r.steps == [Threw(Overridable(e))]
    ensures b != NoMatchFn ==> r.Done?
    ensures b != SelectFn && b != NoMatchFn ==> r.field.value == f.value
    ensures b == FilterFn || b == FormatFn ==> r == Done(f, [])
    ensures b == SelectFn && e == ItemSelect ==> r == Done(SelectWith(f, item), [])
    ensures b == SelectFn && (e == HideResults || e == NoMatch) ==> r == Done(SelectWith(f, ""), [])
    ensures KeepsValueAndVisibility(Fn(BuiltinFn(b)))
            && (b == NoMatchFn ==> KeepsValueAndVisibility(Lookup(f.options, "clearResults"))) ==>
              r.field.value == f.value && r.field.visible == f.visible
    ensures KeepsContainer(Fn(BuiltinFn(b))) ==> r.field.container == f.container
  {
    if ActsOnContainer(b) then Done(ContainerEffect(f, b), [])
    else if b == NoMatchFn then NoMatchDefault(f, Overridable(e))
    else if b == SelectFn && e == ItemSelect then Done(SelectWith(f, item), [])
    else if b == SelectFn && e != ShowResults then Done(SelectWith(f, ""), [])
    else Done(f, [])
  }

  /** `$(field).smartAutoComplete().<event>(...)`: whatever function the
      stored options hold for the event; a value that is not a function
      throws a TypeError. */
  function CallOption(f: Field, e: Lifecycle, item: string): (r: Outcome)
    ensures SameSetup(r.field, f)
    ensures r.Done? ==> r.steps == []
    ensures r.Thrown? ==> r.steps == [Threw(Overridable(e))]
    ensures !Lookup(f.options, OptionKey(e)).Fn? ==> r == Thrown(f, [Threw(Overridable(e))])
    ensures Lookup(f.options, OptionKey(e)).Fn? && Lookup(f.options, OptionKey(e)).fn.UserFn? ==> r == Done(f, [])
    ensures Lookup(f.options, OptionKey(e)).Fn? && Lookup(f.options, OptionKey(e)) != Fn(BuiltinFn(NoMatchFn)) ==> r.Done?
    ensures CallKeepsValueAndVisibility(f.options, OptionKey(e)) ==>
              r.field.value == f.value && r.field.visible == f.visible
    ensures KeepsContainer(Lookup(f.options, OptionKey(e))) ==> r.field.container == f.container
  {
    match Lookup(f.options, OptionKey(e))
    case Fn(BuiltinFn(b)) => RunBuiltin(f, b, e, item)
    case Fn(UserFn(_)) => Done(f, [])
    case _ => Thrown(f, [Threw(Overridable(e))])
  }

  /** Triggering a lifecycle event. The plugin's listener runs the option's
      function only when the override rule lets it; other listeners are
      outside the model. `item` is the text of the selected item, used by
      `itemSelect` only. */
  function Dispatch(f: Field, e: Lifecycle, item: string): (r: Outcome)
    ensures SameSetup(r.field, f)
    ensures |r.steps| >= 1 && r.steps[0] == Fired(Overridable(e))
    ensures forall s :: s in r.steps ==>
              s == Fired(Overridable(e)) || s == DefaultRan(e) || s == Threw(Overridable(e))
    ensures DefaultRan(e) in r.steps <==> DefaultRuns(f.listeners, e)
    ensures !DefaultRuns(f.listeners, e) ==> r == Done(f, [Fired(Overridable(e))])
    ensures CallKeepsValueAndVisibility(f.options, OptionKey(e)) ==>
              r.field.value == f.value && r.field.visible == f.visible
    ensures KeepsContainer(Lookup(f.options, OptionKey(e))) ==> r.field.container == f.container
  {
    if DefaultRuns(f.listeners, e) then
      match CallOption(f, e, item)
      case Done(g, steps) => Done(g, [Fired(Overridable(e)), DefaultRan(e)] + steps)
      case Thrown(g, steps) => Thrown(g, [Fired(Overridable(e)), DefaultRan(e)] + steps)
    else
      Done(f, [Fired(Overridable(e))])
  }

  /** How one result is rendered by the formatter `h`. */
  function FormatOne(h: FnRef, user: Formatters, r: string): string {
    if h == BuiltinFn(FormatFn) then DefaultFormat(r) else user(h, r)
  }

  function FormatAll(h: FnRef, user: Formatters, results: seq<string>): (html: seq<string>)
    ensures |html| == |results|
    ensures forall i :: 0 <= i < |results| ==> html[i] == FormatOne(h, user, results[i])
    ensures h == BuiltinFn(FormatFn) ==> forall i :: 0 <= i < |results| ==> html[i] == "<li>" + results[i] + "</li>"
  {
    seq(|results|, i requires 0 <= i < |results| => FormatOne(h, user, results[i]))
  }

  /** A `resultFormatter` that returns a fragment per result: the built-in
      formatter or a user function. Every other built-in, called on the
      field element with a result, returns `undefined`, which `$.map`
      drops; the built-in `noMatch` throws instead. */
  predicate FormatsResults(v: Value) {
    v == Fn(BuiltinFn(FormatFn)) || (v.Fn? && v.fn.UserFn?)
  }

  /** The plugin's `filterReady` listener: nothing when disabled, `noMatch`
      for no results, otherwise format, clear, append and `showResults`. */
  function OnFilterReady(f: Field, results: seq<string>, user: Formatters): (r: Outcome)
    ensures SameSetup(r.field, f)
    ensures NoFilterCalls(r.steps)
    ensures Disabled(f) ==> r == Done(f, [])
    ensures !Disabled(f) && results == [] ==>
              && Fired(Overridable(NoMatch)) in r.steps
              && Fired(Overridable(ShowResults)) !in r.steps
              && (KeepsValueAndVisibility(Lookup(f.options, "noMatch"))
                  && KeepsValueAndVisibility(Lookup(f.options, "clearResults")) ==>
                    r.field.value == f.value && r.field.visible == f.visible)
    ensures !Disabled(f) && results != [] && FormatsResults(Lookup(f.options, "resultFormatter"))
            && Lookup(f.options, "clearResults") == Fn(BuiltinFn(ClearFn))
            && KeepsContainer(Lookup(f.options, "showResults")) ==>
              && Fired(Overridable(ShowResults)) in r.steps
              && Fired(Overridable(NoMatch)) !in r.steps
              && r.field.container == FormatAll(Lookup(f.options, "resultFormatter").fn, user, results)
              && r.field.value == f.value
    ensures !Disabled(f) && results != [] && !Lookup(f.options, "resultFormatter").Fn? ==>
              r == Thrown(f, [Threw(FilterReady)])
    ensures !Disabled(f) && results != [] && Lookup(f.options, "resultFormatter") == Fn(BuiltinFn(NoMatchFn)) ==>
              r == Thrown(f, [Threw(FilterReady)])
    ensures !Disabled(f) && results != [] && Lookup(f.options, "resultFormatter").Fn?
            && !FormatsResults(Lookup(f.options, "resultFormatter"))
            && Lookup(f.options, "resultFormatter") != Fn(BuiltinFn(NoMatchFn))
            && Lookup(f.options, "clearResults") == Fn(BuiltinFn(ClearFn))
            && KeepsContainer(Lookup(f.options, "showResults")) ==>
              && Fired(Overridable(ShowResults)) in r.steps
              && r.field.container == []
  {
    if Disabled(f) then Done(f, [])
    else if |results| < 1 then
      Dispatch(f, NoMatch, "")
    else
      match Lookup(f.options, "resultFormatter")
      case Fn(BuiltinFn(NoMatchFn)) => Thrown(f, [Threw(FilterReady)])
      case Fn(h) =>
        Render(f, if FormatsResults(Fn(h)) then FormatAll(h, user, results) else [])
      case _ => Thrown(f, [Threw(FilterReady)])
  }

  /** The rendering half of `filterReady`: clear the container through the
      stored `clearResults`, append the fragments, trigger `showResults`. */
  function Render(f: Field, html: seq<string>): (r: Outcome)
    ensures SameSetup(r.field, f)
    ensures NoFilterCalls(r.steps)
    ensures Fired(Overridable(NoMatch)) !in r.steps
    ensures r.Thrown? && Fired(Overridable(ShowResults)) !in r.steps ==> r == Thrown(f, [Threw(FilterReady)])
    ensures Lookup(f.options, "clearResults") == Fn(BuiltinFn(ClearFn)) ==>
              && Fired(Overridable(ShowResults)) in r.steps
              && r.field.value == f.value
              && (KeepsContainer(Lookup(f.options, "showResults")) ==> r.field.container == html)
  {
    match Clear(f, FilterReady)
    case Done(g, _) => Dispatch(g.(container := g.container + html), ShowResults, "")
    case Thrown(g, steps) => Thrown(g, steps)
  }

  /** Triggering `filterReady` on the field. */
  function FireFilterReady(f: Field, results: seq<string>, user: Formatters): (r: Outcome)
    ensures SameSetup(r.field, f)
    ensures NoFilterCalls(r.steps)
    ensures |r.steps| >= 1 && r.steps[0] == Fired(FilterReady)
  {
    match OnFilterReady(f, results, user)
    case Done(g, steps) => Done(g, [Fired(FilterReady)] + steps)
    case Thrown(g, steps) => Thrown(g, [Fired(FilterReady)] + steps)
  }

  /** Where a filter's results go: `filterReady` on the field when the
      target is this field; a request is recorded as issued. */
  function Deliver(f: Field, e: Filter.Effect, user: Formatters): (r: Outcome)
    ensures SameSetup(r.field, f)
    ensures NoFilterCalls(r.steps)
    ensures Fired(FilterReady) in r.steps ==> e.Emit? && e.target == Filter.FieldTarget(f.self)
    ensures e.Emit? && e.target != Filter.FieldTarget(f.self) ==> r == Done(f, [])
  {
    match e
    case Emit(target, results) =>
      if target == Filter.FieldTarget(f.self) then FireFilterReady(f, results, user)
      else Done(f, [])
    case Fetch(request) => Done(f, [RequestIssued(request)])
    case NoEffect => Done(f, [])
  }

  /** The object the filter runs on: the field element, as the keyIn
      handler binds it, or the stored options object. */
  datatype FilterThis = FieldElementThis | OptionsThis

  /** The plugin's `keyIn` listener, with the filter run on `binding`:
      nothing when disabled, otherwise one call of the configured filter
      with the query and the configured source. */
  function ReceiverFor(f: Field, binding: FilterThis): Filter.Receiver {
    if binding == FieldElementThis then Filter.ElementReceiver else Filter.OptionsReceiver(f.options)
  }

  function KeyInWith(f: Field, query: string, binding: FilterThis, user: Formatters): (r: Outcome)
    ensures SameSetup(r.field, f)
    ensures Disabled(f) ==> r == Done(f, [])
    ensures !Disabled(f) && !Lookup(f.options, "filter").Fn? ==> r == Thrown(f, [Threw(KeyIn)])
    ensures !Disabled(f) && Lookup(f.options, "filter").Fn? ==>
              && |r.steps| >= 1
              && r.steps[0] == FilterCalled(Lookup(f.options, "filter").fn, query, Lookup(f.options, "source"))
              && NoFilterCalls(r.steps[1..])
  {
    if Disabled(f) then Done(f, [])
    else
      match Lookup(f.options, "filter")
      case Fn(h) =>
        var source := Lookup(f.options, "source");
        var call := FilterCalled(h, query, source);
        if h == BuiltinFn(FilterFn) then
          var r := Prepend(call, Deliver(f, Filter.DefaultFilter(ReceiverFor(f, binding), query, source), user));
          assert r.steps[1..] == Deliver(f, Filter.DefaultFilter(ReceiverFor(f, binding), query, source), user).steps;
          r
        else if h.BuiltinFn? then
          var r := Prepend(call, RunAsFilter(f, h.builtin, binding));
          assert r.steps[1..] == RunAsFilter(f, h.builtin, binding).steps;
          r
        else
          Done(f, [call])
      case _ => Thrown(f, [Threw(KeyIn)])
  }

  /** Another built-in held as `filter`, called with the query and the
      source. On the field element, which has no `resultsContainer` and no
      `clearResults`, only the built-in `noMatch` has an effect: calling
      `this.clearResults()` throws a TypeError. On the options object the
      built-ins act on the field's container as their listeners do. The
      built-in `itemSelect` there reads the query as a selector, which is
      left out. */
  function RunAsFilter(f: Field, b: Builtin, binding: FilterThis): (r: Outcome)
    requires b != FilterFn
    ensures SameSetup(r.field, f)
    ensures r.Done? ==> r.steps == []
    ensures r.Thrown? ==> r.steps == [Threw(KeyIn)]
    ensures binding == FieldElementThis ==>
              r == if b == NoMatchFn then Thrown(f, [Threw(KeyIn)]) else Done(f, [])
    ensures binding == OptionsThis && b == ShowFn ==> r == Done(f.(visible := true), [])
    ensures binding == OptionsThis && b == HideFn ==> r == Done(f.(visible := false), [])
    ensures binding == OptionsThis && b == ClearFn ==> r == Done(f.(container := []), [])
    ensures binding == OptionsThis && b == NoMatchFn && Lookup(f.options, "clearResults") == Fn(BuiltinFn(ClearFn)) ==>
              r == Done(f.(container := [NoResultsItem]), [])
  {
    match binding
    case FieldElementThis =>
      if b == NoMatchFn then Thrown(f, [Threw(KeyIn)]) else Done(f, [])
    case OptionsThis =>
      if ActsOnContainer(b) then Done(ContainerEffect(f, b), [])
      else if b == NoMatchFn then NoMatchDefault(f, KeyIn)
      else Done(f, [])
  }

  /** The built-in `noMatch` held as `filter`: with the handler as written,
      every keyIn on an enabled field calls it and throws, leaving the state
      as it was. */
  lemma NoMatchAsFilterThrows(f: Field, query: string, user: Formatters)
    requires !Disabled(f)
    requires Lookup(f.options, "filter") == Fn(BuiltinFn(NoMatchFn))
    ensures Trigger(f, KeyInEv(query), user)
         == Thrown(f, [Fired(KeyIn), FilterCalled(BuiltinFn(NoMatchFn), query, Lookup(f.options, "source")), Threw(KeyIn)])
  {
    assert OnKeyInAsWritten(f, query, user) == KeyInWith(f, query, FieldElementThis, user);
  }

  /** The handler as the source binds it: `filter.apply(this, ...)` with the
      field element as `this`. */
  function OnKeyInAsWritten(f: Field, query: string, user: Formatters): (r: Outcome)
    ensures r.field == f
    ensures Fired(FilterReady) !in r.steps
  {
    Filter.ElementReceiverReachesNoField(query, Lookup(f.options, "source"), Filter.Failure);
    KeyInWith(f, query, FieldElementThis, user)
  }

  /** The handler as intended: the filter runs on the stored options, where
      the default filter finds its `context` and `maxResults`. */
  function OnKeyIn(f: Field, query: string, user: Formatters): (r: Outcome)
    ensures !Disabled(f) && Lookup(f.options, "filter") == Fn(BuiltinFn(FilterFn))
            && Lookup(f.options, "source").Arr?
            && Lookup(f.options, "context") == Elem(FieldNode(f.self)) ==>
              |r.steps| >= 2 && r.steps[1] == Fired(FilterReady)
  {
    var source := Lookup(f.options, "source");
    if source.Arr? then
      Filter.ArraySourceEmitsTruncatedMatches(f.options, query, source.items);
      KeyInWith(f, query, OptionsThis, user)
    else
      KeyInWith(f, query, OptionsThis, user)
  }

  /** The success or error callback of a request the default filter issued. */
  function OnRequestSettled(f: Field, request: Filter.Request, reply: Filter.Reply, user: Formatters): (r: Outcome)
    ensures SameSetup(r.field, f)
    ensures reply.Failure? ==> r == Done(f, [])
  {
    match Filter.Settle(request, reply)
    case Some(e) => Deliver(f, e, user)
    case None => Done(f, [])
  }

  /** What can happen to a field from outside. */
  datatype Event =
    | KeyInEv(query: string)
    | FilterReadyEv(results: seq<string>)
    | LifecycleEv(event: Lifecycle, item: string)
    | RequestSettled(request: Filter.Request, reply: Filter.Reply)

  /** One event, run to completion; an exception escapes to the browser and
      the state reached before it stays. Returns the new state and the steps
      taken. `keyIn` runs the handler as the source binds it. */
  function Trigger(f: Field, ev: Event, user: Formatters): (r: Outcome)
    ensures SameSetup(r.field, f)
    ensures ev.KeyInEv? ==> && |r.steps| >= 1 && r.steps[0] == Fired(KeyIn)
                            && r.field == f && Fired(FilterReady) !in r.steps
    ensures ev.FilterReadyEv? ==> |r.steps| >= 1 && r.steps[0] == Fired(FilterReady)
    ensures ev.LifecycleEv? ==> |r.steps| >= 1 && r.steps[0] == Fired(Overridable(ev.event))
    ensures ev.RequestSettled? && ev.reply.Failure? ==> r == Done(f, [])
  {
    match ev
    case KeyInEv(q) => Prepend(Fired(KeyIn), OnKeyInAsWritten(f, q, user))
    case FilterReadyEv(results) => FireFilterReady(f, results, user)
    case LifecycleEv(e, item) => Dispatch(f, e, item)
    case RequestSettled(request, reply) => OnRequestSettled(f, request, reply, user)
  }

  /** The same events with the corrected `keyIn` handler; every other event
      runs as written. */
  function TriggerCorrected(f: Field, ev: Event, user: Formatters): (r: Outcome)
    ensures SameSetup(r.field, f)
    ensures !ev.KeyInEv? ==> r == Trigger(f, ev, user)
    ensures ev.KeyInEv? ==> |r.steps| >= 1 && r.steps[0] == Fired(KeyIn)
    ensures ev.KeyInEv? && !Disabled(f) && Lookup(f.options, "filter") == Fn(BuiltinFn(FilterFn))
            && Lookup(f.options, "source").Arr?
            && Lookup(f.options, "context") == Elem(FieldNode(f.self)) ==>
              |r.steps| >= 3 && r.steps[2] == Fired(FilterReady)
  {
    match ev
    case KeyInEv(q) => Prepend(Fired(KeyIn), OnKeyIn(f, q, user))
    case _ => Trigger(f, ev, user)
  }

  /** An outcome with one more step in front. */
  function Prepend(s: Step, o: Outcome): (r: Outcome)
    ensures r.field == o.field && r.Done? == o.Done?
    ensures r.steps == [s] + o.steps
  {
    match o
    case Done(g, steps) => Done(g, [s] + steps)
    case Thrown(g, steps) => Thrown(g, [s] + steps)
  }

  function CountFilterCalls(t: seq<Step>): nat {
    if t == [] then 0 else (if t[0].FilterCalled? then 1 else 0) + CountFilterCalls(t[1..])
  }

  lemma {:induction false} NoFilterCallsCountsZero(t: seq<Step>)
    requires NoFilterCalls(t)
    ensures CountFilterCalls(t) == 0
  {
    if t != [] {
      assert !t[0].FilterCalled?;
      NoFilterCallsCountsZero(t[1..]);
    }
  }

  /** An enabled field with a callable filter calls it exactly once per
      `keyIn`, with the query and the configured source; a disabled one calls
      nothing and changes nothing. */
  lemma KeyInCallsFilterOnce(f: Field, query: string, user: Formatters)
    ensures forall r :: r == Trigger(f, KeyInEv(query), user) || r == TriggerCorrected(f, KeyInEv(query), user) ==>
            && (Disabled(f) ==> r == Done(f, [Fired(KeyIn)]))
            && (!Disabled(f) && Lookup(f.options, "filter").Fn? ==>
                  && CountFilterCalls(r.steps) == 1
                  && FilterCalled(Lookup(f.options, "filter").fn, query, Lookup(f.options, "source")) in r.steps)
  {
    KeyInWithCallsFilterOnce(f, query, FieldElementThis, user);
    KeyInWithCallsFilterOnce(f, query, OptionsThis, user);
    assert OnKeyInAsWritten(f, query, user) == KeyInWith(f, query, FieldElementThis, user);
    assert OnKeyIn(f, query, user) == KeyInWith(f, query, OptionsThis, user);
  }

  /** The keyIn listener with either receiver, behind the fired `keyIn`. */
  lemma KeyInWithCallsFilterOnce(f: Field, query: string, binding: FilterThis, user: Formatters)
    ensures var r := Prepend(Fired(KeyIn), KeyInWith(f, query, binding, user));
            && (Disabled(f) ==> r == Done(f, [Fired(KeyIn)]))
            && (!Disabled(f) && Lookup(f.options, "filter").Fn? ==>
                  && CountFilterCalls(r.steps) == 1
                  && FilterCalled(Lookup(f.options, "filter").fn, query, Lookup(f.options, "source")) in r.steps)
  {
    var inner := KeyInWith(f, query, binding, user);
    var r := Prepend(Fired(KeyIn), inner);
    if !Disabled(f) && Lookup(f.options, "filter").Fn? {
      assert r.steps[1] == inner.steps[0];
      NoFilterCallsCountsZero(inner.steps[1..]);
      assert r.steps[1..] == inner.steps;
      assert inner.steps[1..] == r.steps[2..];
    }
  }

  /** The override rule for each lifecycle event: with one listener (the
      plugin's own) the option's function runs; with more, only the other
      listeners run and the modelled state is untouched. */
  lemma OverrideRule(f: Field, e: Lifecycle, item: string)
    ensures var r := Dispatch(f, e, item);
            && (DefaultRan(e) in r.steps <==> ListenerCount(f.listeners, Overridable(e)) <= 1)
            && (ListenerCount(f.listeners, Overridable(e)) > 1 ==> r.field == f)
  {
  }

  /** The built-in handlers, when they run: `showResults` makes the
      container visible, `hideResults` hides it, `noMatch` leaves exactly
      the notice in it, `itemSelect` puts the item's text in the field; each
      leaves the rest of the state as it was. */
  lemma DefaultHandlerEffects(f: Field, e: Lifecycle, item: string)
    requires DefaultRuns(f.listeners, e)
    requires Lookup(f.options, OptionKey(e)) == Fn(BuiltinFn(BuiltinFor(e)))
    requires e == NoMatch ==> Lookup(f.options, "clearResults") == Fn(BuiltinFn(ClearFn))
    ensures var r := Dispatch(f, e, item);
            && r.Done?
            && r.steps == [Fired(Overridable(e)), DefaultRan(e)]
            && (e == ShowResults ==> r.field == f.(visible := true))
            && (e == HideResults ==> r.field == f.(visible := false))
            && (e == NoMatch ==> r.field == f.(container := [NoResultsItem]))
            && (e == ItemSelect && Lookup(f.options, "context") == Elem(FieldNode(f.self)) ==>
                  r.field == f.(value := item))
            && (e == ItemSelect && Filter.TargetOf(Lookup(f.options, "context")) != Filter.FieldTarget(f.self) ==>
                  r.field == f)
  {
  }

  /** The listener runs whatever function the event's option holds: a
      built-in stored under another event's key does its own work there,
      `showResults` showing, `hideResults` hiding, `clearResults` emptying
      the container. */
  lemma ForeignBuiltinRuns(f: Field, e: Lifecycle, b: Builtin, item: string)
    requires DefaultRuns(f.listeners, e)
    requires Lookup(f.options, OptionKey(e)) == Fn(BuiltinFn(b))
    requires b == ShowFn || b == HideFn || b == ClearFn
    ensures var r := Dispatch(f, e, item);
            && r.Done?
            && r.steps == [Fired(Overridable(e)), DefaultRan(e)]
            && (b == ShowFn ==> r.field == f.(visible := true))
            && (b == HideFn ==> r.field == f.(visible := false))
            && (b == ClearFn ==> r.field == f.(container := []))
  {
  }

  /** The built-in `noMatch` stored as `clearResults` calls itself without
      end: every `noMatch` the plugin runs then throws, leaving the state as
      it was. */
  lemma NoMatchAsClearThrows(f: Field)
    requires DefaultRuns(f.listeners, NoMatch)
    requires Lookup(f.options, "noMatch") == Fn(BuiltinFn(NoMatchFn))
    requires Lookup(f.options, "clearResults") == Fn(BuiltinFn(NoMatchFn))
    ensures Dispatch(f, NoMatch, "")
         == Thrown(f, [Fired(Overridable(NoMatch)), DefaultRan(NoMatch), Threw(Overridable(NoMatch))])
  {
  }

  /** With the filter run on the options object, a `keyIn` on an enabled
      field with the default filter and an array source triggers
      `filterReady` on the field with the matches cut to `maxResults`. */
  lemma KeyInDeliversMatches(f: Field, query: string, items: seq<string>, user: Formatters)
    requires !Disabled(f)
    requires Lookup(f.options, "filter") == Fn(BuiltinFn(FilterFn))
    requires Lookup(f.options, "source") == Arr(items)
    requires Lookup(f.options, "context") == Elem(FieldNode(f.self))
    ensures var results := JsArray.Truncate(Matching.Grep(query, items), Filter.ToInteger(Lookup(f.options, "maxResults")));
            var r := OnKeyIn(f, query, user);
            var ready := FireFilterReady(f, results, user);
            r.field == ready.field && r.steps == [FilterCalled(BuiltinFn(FilterFn), query, Arr(items))] + ready.steps
  {
    var results := JsArray.Truncate(Matching.Grep(query, items), Filter.ToInteger(Lookup(f.options, "maxResults")));
    Filter.ArraySourceEmitsTruncatedMatches(f.options, query, items);
    KeyInWithBuiltinFilter(f, query, OptionsThis, user);
    DeliverToSelf(f, results, user);
  }

  /** With the built-in filter, the keyIn listener is the filter call
      followed by whatever delivering the filter's effect does. */
  lemma KeyInWithBuiltinFilter(f: Field, query: string, binding: FilterThis, user: Formatters)
    requires !Disabled(f)
    requires Lookup(f.options, "filter") == Fn(BuiltinFn(FilterFn))
    ensures KeyInWith(f, query, binding, user)
         == Prepend(FilterCalled(BuiltinFn(FilterFn), query, Lookup(f.options, "source")),
                    Deliver(f, Filter.DefaultFilter(ReceiverFor(f, binding), query, Lookup(f.options, "source")), user))
  {
  }

  /** Results addressed to this field run its `filterReady` handling. */
  lemma DeliverToSelf(f: Field, results: seq<string>, user: Formatters)
    ensures Deliver(f, Filter.Emit(Filter.FieldTarget(f.self), results), user) == FireFilterReady(f, results, user)
  {
  }

  /** A request issued by the as-written handler targets no field, so its
      reply, whatever it is, changes nothing either. */
  lemma AsWrittenRequestReachesNoField(f: Field, query: string, reply: Filter.Reply, user: Formatters)
    requires !Disabled(f)
    requires Lookup(f.options, "filter") == Fn(BuiltinFn(FilterFn))
    requires Lookup(f.options, "source").Str?
    ensures var r := OnKeyInAsWritten(f, query, user);
            && |r.steps| == 2
            && r.steps[1].RequestIssued?
            && OnRequestSettled(f, r.steps[1].request, reply, user) == Done(f, [])
  {
    Filter.ElementReceiverReachesNoField(query, Lookup(f.options, "source"), reply);
  }
}

=== FILE: filter.dfy ===
/** The default `filter` option. It reads `this.context` and
    `this.maxResults` from whatever object it is called on, then dispatches
    on the source's runtime type: an array is matched and truncated and the
    result triggered as `filterReady` on `$(context)`; a string is requested
    as a URL with the query as `term`, and a successful reply is truncated
    and triggered the same way; any other source triggers nothing. */
module Filter {
  import opened Wrappers
  import opened Options
  import Matching
  import JsArray

  /** The source, dispatched as `$.type(source)` does. */
  datatype Source = ArraySrc(items: seq<string>) | UrlSrc(url: string) | OtherSrc

  function SourceOf(v: Value): Source {
    match v
    case Arr(items) => ArraySrc(items)
    case Str(url) => UrlSrc(url)
    case _ => OtherSrc
  }

  /** The object bound to `this` when the filter runs: the stored options
      object, or the field's DOM element, which has neither a `context` nor
      a `maxResults` property. */
  datatype Receiver = OptionsReceiver(options: OptionMap) | ElementReceiver

  /** Where `$(context).trigger(...)` delivers: a field, or no field (an
      empty selection such as `$(undefined)`, or an element that is not a
      field, such as the results container). */
  datatype Target = NoTarget | FieldTarget(field: nat)

  function TargetOf(context: Value): Target {
    match context
    case Elem(FieldNode(f)) => FieldTarget(f)
    case _ => NoTarget
  }

  /** `ToIntegerOrInfinity`, as `splice` applies it to its count, restricted
      to the modelled values; `undefined` is NaN and so 0. */
  function ToInteger(v: Value): int {
    match v
    case Num(n) => n
    case Bool(b) => if b then 1 else 0
    case _ => 0
  }

  function ContextOf(receiver: Receiver): Value {
    match receiver
    case OptionsReceiver(o) => Lookup(o, "context")
    case ElementReceiver => Undefined
  }

  function MaxResultsOf(receiver: Receiver): Value {
    match receiver
    case OptionsReceiver(o) => Lookup(o, "maxResults")
    case ElementReceiver => Undefined
  }

  /** A pending URL request, with the target and cap the success callback
      closes over. */
  datatype Request = Request(url: string, term: string, target: Target, maxResults: int)

  /** What one call of the default filter does. */
  datatype Effect = Emit(target: Target, results: seq<string>) | Fetch(request: Request) | NoEffect

  function DefaultFilter(receiver: Receiver, term: string, source: Value): (e: Effect)
    ensures source.Arr? ==> e.Emit? && e.target == TargetOf(ContextOf(receiver))
    ensures source.Arr? ==> Matching.IsSubsequence(e.results, source.items)
    ensures source.Arr? ==> forall x :: x in e.results ==> Matching.Matches(term, x)
    ensures source.Str? ==> e == Fetch(Request(source.s, term, TargetOf(ContextOf(receiver)),
                                               ToInteger(MaxResultsOf(receiver))))
    ensures !source.Arr? && !source.Str? ==> e == NoEffect
  {
    var target := TargetOf(ContextOf(receiver));
    var cap := ToInteger(MaxResultsOf(receiver));
    match SourceOf(source)
    case ArraySrc(items) =>
      var matches := Matching.Grep(term, items);
      Matching.GrepIsSubsequence(term, items);
      PrefixIsSubsequence(JsArray.Truncate(matches, cap), matches, items);
      Emit(target, JsArray.Truncate(matches, cap))
    case UrlSrc(url) => Fetch(Request(url, term, target, cap))
    case OtherSrc => NoEffect
  }

  /** A prefix of a subsequence is a subsequence. */
  lemma {:induction false} PrefixIsSubsequence(p: seq<string>, a: seq<string>, b: seq<string>)
    requires p <= a
    requires Matching.IsSubsequence(a, b)
    ensures Matching.IsSubsequence(p, b)
    decreases |b|
  {
    if p != [] && b != [] {
      if a[0] == b[0] {
        PrefixIsSubsequence(p[1..], a[1..], b[1..]);
      } else {
        PrefixIsSubsequence(p, a, b[1..]);
      }
    }
  }

  /** The reply to a request: the parsed JSON array on success, or an
      error, which the filter's empty error callback swallows. */
  datatype Reply = Success(data: seq<string>) | Failure

  /** What the request's callbacks deliver, if anything. */
  function Settle(request: Request, reply: Reply): (r: Option<Effect>)
    ensures reply.Failure? ==> r.None?
    ensures reply.Success? ==>
              && r.Some? && r.value.Emit? && r.value.target == request.target
              && r.value.results <= reply.data
              && |r.value.results| == if request.maxResults <= 0 then 0
                                      else if request.maxResults < |reply.data| then request.maxResults
                                      else |reply.data|
  {
    match reply
    case Success(data) => Some(Emit(request.target, JsArray.Truncate(data, request.maxResults)))
    case Failure => None
  }

  /** With the options object as receiver, an array source yields exactly
      the matching items, in source order, cut to the configured cap, and
      sent to the field the options belong to. */
  lemma ArraySourceEmitsTruncatedMatches(o: OptionMap, term: string, items: seq<string>)
    ensures DefaultFilter(OptionsReceiver(o), term, Arr(items))
         == Emit(TargetOf(Lookup(o, "context")),
                 JsArray.Truncate(Matching.Grep(term, items), ToInteger(Lookup(o, "maxResults"))))
  {
  }

  /** The default cap of -1 does not mean "unlimited": with it, an array
      source always yields an empty result list, whatever matches. */
  lemma DefaultCapEmitsNothing(field: nat, term: string, items: seq<string>)
    ensures var o := Defaults()["context" := Elem(FieldNode(field))];
            DefaultFilter(OptionsReceiver(o), term, Arr(items)) == Emit(FieldTarget(field), [])
  {
    var o := Defaults()["context" := Elem(FieldNode(field))];
    DefaultValues();
    assert Lookup(o, "maxResults") == Num(-1);
    assert Lookup(o, "context") == Elem(FieldNode(field));
    assert ToInteger(Lookup(o, "maxResults")) == -1;
    assert TargetOf(Lookup(o, "context")) == FieldTarget(field);
    var g := Matching.Grep(term, items);
    JsArray.NegativeCapKeepsNothing(g, -1);
    ArraySourceEmitsTruncatedMatches(o, term, items);
  }

  /** Called on the field element, as the keyIn handler calls it, the
      filter has no context to trigger on: whatever the source, nothing
      reaches a field, immediately or when a request settles. */
  lemma ElementReceiverReachesNoField(term: string, source: Value, reply: Reply)
    ensures var e := DefaultFilter(ElementReceiver, term, source);
            && (e.Emit? ==> e.target == NoTarget)
            && (e.Fetch? ==> var s := Settle(e.request, reply); s.Some? ==> s.value.target == NoTarget)
  {
  }
}

=== FILE: js_array.dfy ===
/** The part of JavaScript's `Array.prototype.splice` the default filter
    uses: `splice(start, deleteCount)` with nothing inserted. It removes a
    clamped window from the array and returns the removed elements; the
    filter keeps the returned part as its result list. */
module JsArray {

  /** The standard's `actualStart`: a negative start counts from the end,
      and the result is clamped to `[0, len]`. */
  function ActualStart(len: nat, start: int): (k: nat)
    ensures k <= len
  {
    if start < 0 then (if len + start < 0 then 0 else len + start)
    else if start < len then start
    else len
  }

  /** The standard's `actualDeleteCount`: the requested count clamped to
      `[0, len - actualStart]`. */
  function ActualDeleteCount(len: nat, from: nat, deleteCount: int): (d: nat)
    requires from <= len
    ensures from + d <= len
  {
    if deleteCount < 0 then 0
    else if deleteCount < len - from then deleteCount
    else len - from
  }

  datatype Spliced<T> = Spliced(removed: seq<T>, remaining: seq<T>)

  function Splice<T>(xs: seq<T>, start: int, deleteCount: int): (r: Spliced<T>)
    ensures |r.removed| + |r.remaining| == |xs|
    ensures deleteCount <= 0 ==> r.removed == [] && r.remaining == xs
    ensures |r.removed| == ActualDeleteCount(|xs|, ActualStart(|xs|, start), deleteCount)
    ensures r.removed == xs[ActualStart(|xs|, start)..ActualStart(|xs|, start) + |r.removed|]
  {
    var from := ActualStart(|xs|, start);
    var d := ActualDeleteCount(|xs|, from, deleteCount);
    Spliced(xs[from..from + d], xs[..from] + xs[from + d..])
  }

  /** Nothing is lost: putting the removed window back where it was taken
      from rebuilds the array. */
  lemma SpliceRoundTrip<T>(xs: seq<T>, start: int, deleteCount: int)
    ensures var r := Splice(xs, start, deleteCount);
            var k := ActualStart(|xs|, start);
            r.remaining[..k] + r.removed + r.remaining[k..] == xs
  {
    var r := Splice(xs, start, deleteCount);
    var k := ActualStart(|xs|, start);
    var d := ActualDeleteCount(|xs|, k, deleteCount);
    assert r.remaining[..k] == xs[..k];
    assert r.remaining[k..] == xs[k + d..];
    assert xs[..k] + xs[k..k + d] + xs[k + d..] == xs;
  }

  /** `results.splice(0, n)`: the first `n` results, where a negative `n`
      keeps none and an `n` past the end keeps all. */
  function Truncate<T>(xs: seq<T>, n: int): (r: seq<T>)
    ensures r <= xs
    ensures |r| == if n <= 0 then 0 else if n < |xs| then n else |xs|
  {
    Splice(xs, 0, n).removed
  }

  /** No negative cap means "unlimited": every negative cap drops every
      element, so a non-empty list never comes back whole. */
  lemma NegativeCapKeepsNothing<T>(xs: seq<T>, n: int)
    requires n < 0
    ensures Truncate(xs, n) == []
    ensures xs != [] ==> Truncate(xs, n) != xs
  {
  }

  /** A cap at or beyond the length keeps everything. */
  lemma LargeCapKeepsAll<T>(xs: seq<T>, n: int)
    requires n >= |xs|
    ensures Truncate(xs, n) == xs
  {
  }
}

=== FILE: matching.dfy ===
/** The default filter's matcher: the query is escaped so that every regular
    expression metacharacter stands for itself, compiled with the
    case-insensitive flag, and run against each candidate. Because the
    escaped pattern holds only literal atoms, a test is a case-insensitive
    substring search, which is what this module proves. */
module Matching {
  import opened Wrappers

  /** The characters of the JavaScript class `\s`. */
  predicate IsRegexWhitespace(c: char) {
    || c == ' ' || c == '\t' || c == '\n' || c == '\r'
    || c == '\U{000B}' || c == '\U{000C}' || c == '\U{00A0}' || c == '\U{1680}'
    || ('\U{2000}' <= c <= '\U{200A}')
    || c == '\U{2028}' || c == '\U{2029}' || c == '\U{202F}' || c == '\U{205F}'
    || c == '\U{3000}' || c == '\U{FEFF}'
  }

  /** The characters the escaping class `[-[\]{}()*+?.,\\^$|#\s]` selects. */
  predicate IsMeta(c: char) {
    c in "-[]{}()*+?.,\\^$|#" || IsRegexWhitespace(c)
  }

  function CountMeta(q: string): nat {
    if q == [] then 0 else (if IsMeta(q[0]) then 1 else 0) + CountMeta(q[1..])
  }

  /** The query with a backslash put in front of every metacharacter. */
  function Escape(q: string): (p: string)
    ensures |p| == |q| + CountMeta(q)
  {
    if q == [] then []
    else (if IsMeta(q[0]) then ['\\', q[0]] else [q[0]]) + Escape(q[1..])
  }

  /** Reads a pattern back as a sequence of literal characters: an escaped
      metacharacter is that character, any other character is itself. A bare
      metacharacter, or a backslash not followed by a metacharacter, is pattern
      syntax and makes the reading fail. */
  function ParseLiteral(p: string): (r: Option<string>)
    ensures r.Some? ==> |r.value| <= |p|
  {
    if p == [] then Some([])
    else if p[0] == '\\' then
      if |p| >= 2 && IsMeta(p[1]) then
        match ParseLiteral(p[2..])
        case Some(rest) => Some([p[1]] + rest)
        case None => None
      else None
    else if IsMeta(p[0]) then None
    else
      match ParseLiteral(p[1..])
      case Some(rest) => Some([p[0]] + rest)
      case None => None
  }

  /** Escaping loses nothing: reading the escaped pattern back gives the query. */
  lemma {:induction false} EscapeRoundTrip(q: string)
    ensures ParseLiteral(Escape(q)) == Some(q)
  {
    if q != [] {
      EscapeRoundTrip(q[1..]);
      var e := Escape(q);
      if IsMeta(q[0]) {
        assert e[0] == '\\' && e[1] == q[0] && e[2..] == Escape(q[1..]);
      } else {
        assert q[0] != '\\' by { assert '\\' in "-[]{}()*+?.,\\^$|#"; }
        assert e[0] == q[0] && e[1..] == Escape(q[1..]);
      }
      assert [q[0]] + q[1..] == q;
    }
  }

  /** The escaped form is the only pattern that reads back as a literal query. */
  lemma {:induction false} ParseLiteralOnlyFromEscape(p: string, q: string)
    requires ParseLiteral(p) == Some(q)
    ensures p == Escape(q)
  {
    if p != [] {
      if p[0] == '\\' {
        var rest := ParseLiteral(p[2..]).value;
        ParseLiteralOnlyFromEscape(p[2..], rest);
        assert q == [p[1]] + rest;
        assert q[1..] == rest;
        assert p == ['\\', p[1]] + p[2..];
      } else {
        var rest := ParseLiteral(p[1..]).value;
        ParseLiteralOnlyFromEscape(p[1..], rest);
        assert q == [p[0]] + rest;
        assert q[1..] == rest;
        assert p == [p[0]] + p[1..];
      }
    }
  }

  /** Both directions together: a pattern reads back as the query under
      `ParseLiteral`, the grammar of escaped patterns, exactly when it is
      that query's escaped form. */
  lemma EscapeCharacterizesLiteralPatterns(p: string, q: string)
    ensures ParseLiteral(p) == Some(q) <==> p == Escape(q)
  {
    if ParseLiteral(p) == Some(q) {
      ParseLiteralOnlyFromEscape(p, q);
    }
    if p == Escape(q) {
      EscapeRoundTrip(q);
    }
  }

  /** ASCII case folding, standing in for the `i` flag's canonicalisation. */
  function Lower(c: char): char {
    if 'A' <= c <= 'Z' then (c as int + 32) as char else c
  }

  function Fold(s: string): (r: string)
    ensures |r| == |s|
    ensures forall i :: 0 <= i < |s| ==> r[i] == Lower(s[i])
  {
    seq(|s|, i requires 0 <= i < |s| => Lower(s[i]))
  }

  /** Two characters that are the same ASCII letter in different cases. */
  predicate SameAsciiLetter(c: char, d: char) {
    ('A' <= c <= 'Z' && d as int == c as int + 32) || ('A' <= d <= 'Z' && c as int == d as int + 32)
  }

  /** ASCII folding, the model's stand-in for the `i` flag, identifies
      exactly the characters that are equal or are one ASCII letter in its
      two cases; under it every other character compares only with itself.
      The flag itself also pairs letters outside ASCII, such as `é` and `É`. */
  lemma LowerEqualIff(c: char, d: char)
    ensures Lower(c) == Lower(d) <==> c == d || SameAsciiLetter(c, d)
  {
  }

  /** Folding is idempotent: a folded string has no ASCII capital left. */
  lemma FoldIdempotent(s: string)
    ensures Fold(Fold(s)) == Fold(s)
    ensures forall i :: 0 <= i < |s| ==> !('A' <= Fold(s)[i] <= 'Z')
  {
  }

  predicate OccursAt(pat: string, text: string, i: int) {
    0 <= i && i + |pat| <= |text| && text[i..i + |pat|] == pat
  }

  /** Substring search: does `pat` occur somewhere in `text`? */
  function Contains(text: string, pat: string): (r: bool)
    ensures r <==> exists i :: OccursAt(pat, text, i)
    decreases |text|
  {
    if |pat| > |text| then false
    else if text[..|pat|] == pat then
      assert OccursAt(pat, text, 0);
      true
    else
      assert (exists i :: OccursAt(pat, text, i)) <==> (exists i :: OccursAt(pat, text[1..], i)) by {
        forall i | OccursAt(pat, text[1..], i)
          ensures OccursAt(pat, text, i + 1)
        {
          assert text[1..][i..i + |pat|] == text[i + 1..i + 1 + |pat|];
        }
        forall i | OccursAt(pat, text, i)
          ensures i > 0 && OccursAt(pat, text[1..], i - 1)
        {
          assert text[1..][i - 1..i - 1 + |pat|] == text[i..i + |pat|];
        }
      }
      Contains(text[1..], pat)
  }

  /** The reference meaning of the default matcher: the query occurs in the
      candidate when both are case-folded. */
  ghost predicate Matches(q: string, v: string) {
    exists i :: OccursAt(Fold(q), Fold(v), i)
  }

  /** The test `new RegExp(Escape(q), "i").test(v)`: the pattern is read back
      into literal atoms, which are searched for case-insensitively. */
  function RegexTest(q: string, v: string): (r: bool)
    ensures r <==> Matches(q, v)
  {
    EscapeRoundTrip(q);
    match ParseLiteral(Escape(q))
    case Some(atoms) => Contains(Fold(v), Fold(atoms))
    case None => false
  }

  /** `$.grep(source, matcher.test)`: the candidates that match, in order. */
  function Grep(q: string, s: seq<string>): (r: seq<string>)
    ensures |r| <= |s|
    ensures forall x :: x in r <==> x in s && Matches(q, x)
  {
    if s == [] then []
    else
      var rest := Grep(q, s[1..]);
      assert forall x :: x in s <==> x == s[0] || x in s[1..];
      if RegexTest(q, s[0]) then [s[0]] + rest else rest
  }

  /** `a` is obtained from `b` by deleting elements, keeping order. */
  predicate IsSubsequence<T(==)>(a: seq<T>, b: seq<T>)
    decreases |b|
  {
    if a == [] then true
    else if b == [] then false
    else if a[0] == b[0] then IsSubsequence(a[1..], b[1..])
    else IsSubsequence(a, b[1..])
  }

  /** The matcher adds nothing and reorders nothing. */
  lemma {:induction false} GrepIsSubsequence(q: string, s: seq<string>)
    ensures IsSubsequence(Grep(q, s), s)
  {
    if s != [] {
      GrepIsSubsequence(q, s[1..]);
      var rest := Grep(q, s[1..]);
      if !RegexTest(q, s[0]) {
        SubsequenceOfTail(rest, s);
      }
    }
  }

  lemma {:induction false} SubsequenceOfTail<T>(a: seq<T>, b: seq<T>)
    requires b != []
    requires IsSubsequence(a, b[1..])
    ensures IsSubsequence(a, b)
    decreases |b|, |a|
  {
    if a != [] && a[0] == b[0] {
      SubsequenceTail(a, b[1..]);
    }
  }

  /** Dropping the head of a subsequence keeps it a subsequence. */
  lemma {:induction false} SubsequenceTail<T>(a: seq<T>, b: seq<T>)
    requires a != []
    requires IsSubsequence(a, b)
    ensures IsSubsequence(a[1..], b)
    decreases |b|, |a|
  {
    if b != [] {
      if a[0] == b[0] {
        SubsequenceOfTail(a[1..], b);
      } else {
        SubsequenceTail(a, b[1..]);
        SubsequenceOfTail(a[1..], b);
      }
    }
  }

  /** Matching is decided element by element: filtering a concatenation is
      concatenating the filtered parts. */
  lemma {:induction false} GrepDistributes(q: string, a: seq<string>, b: seq<string>)
    ensures Grep(q, a + b) == Grep(q, a) + Grep(q, b)
  {
    if a == [] {
      assert a + b == b;
    } else {
      assert (a + b)[1..] == a[1..] + b;
      GrepDistributes(q, a[1..], b);
    }
  }

  /** On one candidate the filter keeps it exactly when it matches; with
      `GrepDistributes` this determines the filter on every list. */
  lemma GrepSingleton(q: string, x: string)
    ensures Grep(q, [x]) == if Matches(q, x) then [x] else []
  {
    assert [x][1..] == [];
  }

  /** Filtering yields nothing exactly when no candidate matches; this is
      the condition that routes a pass to the no-match path. */
  lemma GrepEmptyIffNoMatch(q: string, s: seq<string>)
    ensures Grep(q, s) == [] <==> forall x :: x in s ==> !Matches(q, x)
  {
    var r := Grep(q, s);
    if r != [] {
      assert r[0] in r;
    }
  }

  /** The empty query matches every candidate. */
  lemma {:induction false} EmptyQueryKeepsAll(s: seq<string>)
    ensures Grep("", s) == s
  {
    if s != [] {
      assert OccursAt(Fold(""), Fold(s[0]), 0);
      EmptyQueryKeepsAll(s[1..]);
    }
  }

  /** Matching ignores ASCII case on both sides. */
  lemma MatchIgnoresCase(q: string, v: string)
    ensures Matches(q, v) <==> Matches(Fold(q), Fold(v))
  {
    assert Fold(Fold(q)) == Fold(q);
    assert Fold(Fold(v)) == Fold(v);
  }
}

=== FILE: options.dfy ===
/** Option resolution. Each call of the plugin merges the built-in defaults,
    the options already stored on the field and the options passed by the
    caller (`$.extend`, last writer wins, `undefined` skipped), records the
    field as the options' `context`, and, when no results container is
    configured, points the options at the page's one shared default container,
    creating it first if the page has none. */
module Options {
  import opened Wrappers

  /** The plugin's own functions, as they sit in the defaults. */
  datatype Builtin = FilterFn | FormatFn | ShowFn | HideFn | NoMatchFn | SelectFn | ClearFn

  /** A function value: one of the plugin's built-ins or one supplied by the
      user (identified, its body outside the model). */
  datatype FnRef = BuiltinFn(builtin: Builtin) | UserFn(id: nat)

  /** DOM nodes an option can refer to. */
  datatype Node = FieldNode(field: nat) | DefaultContainerNode

  /** The JavaScript values options take. Numbers are integers. */
  datatype Value =
    | Undefined
    | Null
    | Bool(b: bool)
    | Num(n: int)
    | Str(s: string)
    | Arr(items: seq<string>)
    | Fn(fn: FnRef)
    | Elem(node: Node)

  /** JavaScript truthiness (NaN is not among the modelled numbers). */
  predicate Truthy(v: Value) {
    match v
    case Undefined => false
    case Null => false
    case Bool(b) => b
    case Num(n) => n != 0
    case Str(s) => s != ""
    case _ => true
  }

  /** The falsy values among those modelled: `undefined`, `null`, `false`,
      `0` and the empty string; every function, array and element is truthy. */
  lemma FalsyValues(v: Value)
    ensures !Truthy(v) <==> v == Undefined || v == Null || v == Bool(false) || v == Num(0) || v == Str("")
  {
  }

  /** An options object: a missing key is an absent property. */
  type OptionMap = map<string, Value>

  /** A property read: a missing key reads as `undefined`. */
  function Lookup(o: OptionMap, key: string): Value {
    if key in o then o[key] else Undefined
  }

  const DefaultMinCharLimit: int := 2
  const DefaultMaxResults: int := -1
  const DefaultDelay: int := 300

  /** The `default_options` object. */
  function Defaults(): (d: OptionMap)
    ensures forall k :: k in d ==> d[k] != Undefined
    ensures forall k :: k in d && d[k].Fn? ==> d[k].fn.BuiltinFn?
    ensures "context" !in d && "resultsContainer" !in d && "source" !in d
    ensures !Truthy(Lookup(d, "disabled"))
  {
    map[
      "minCharLimit" := Num(DefaultMinCharLimit),
      "maxResults" := Num(DefaultMaxResults),
      "delay" := Num(DefaultDelay),
      "typeAhead" := Bool(false),
      "disabled" := Bool(false),
      "forceSelect" := Bool(false),
      "resultFormatter" := Fn(BuiltinFn(FormatFn)),
      "filter" := Fn(BuiltinFn(FilterFn)),
      "showResults" := Fn(BuiltinFn(ShowFn)),
      "hideResults" := Fn(BuiltinFn(HideFn)),
      "noMatch" := Fn(BuiltinFn(NoMatchFn)),
      "itemSelect" := Fn(BuiltinFn(SelectFn)),
      "clearResults" := Fn(BuiltinFn(ClearFn))
    ]
  }

  /** The documented defaults, as the defaults object holds them. */
  lemma DefaultValues()
    ensures Lookup(Defaults(), "minCharLimit") == Num(2)
    ensures Lookup(Defaults(), "maxResults") == Num(-1)
    ensures Lookup(Defaults(), "delay") == Num(300)
    ensures Lookup(Defaults(), "typeAhead") == Bool(false)
    ensures Lookup(Defaults(), "disabled") == Bool(false)
    ensures Lookup(Defaults(), "forceSelect") == Bool(false)
    ensures Lookup(Defaults(), "resultsContainer") == Undefined
  {
  }

  /** `$.extend(target, src)`, shallow: every property of `src` whose value
      is not `undefined` overwrites the target's. */
  function Extend(target: OptionMap, src: OptionMap): (r: OptionMap)
    ensures forall k :: k in r <==> k in target || (k in src && src[k] != Undefined)
    ensures forall k :: k in src && src[k] != Undefined ==> r[k] == src[k]
    ensures forall k :: k in target && (k !in src || src[k] == Undefined) ==> r[k] == target[k]
  {
    target + map k | k in src && src[k] != Undefined :: src[k]
  }

  /** `$.extend(default_options, stored, passed)`. */
  function Merge(base: OptionMap, stored: OptionMap, passed: OptionMap): (r: OptionMap)
    ensures forall k :: Lookup(r, k) == if Lookup(passed, k) != Undefined then Lookup(passed, k)
                                       else if Lookup(stored, k) != Undefined then Lookup(stored, k)
                                       else Lookup(base, k)
  {
    Extend(Extend(base, stored), passed)
  }

  /** Per key, the merge takes the passed value if there is one, else the
      stored value, else the default; a key none of them defines stays
      undefined. */
  lemma MergePrecedence(stored: OptionMap, passed: OptionMap, k: string)
    ensures Lookup(passed, k) != Undefined ==>
              Lookup(Merge(Defaults(), stored, passed), k) == Lookup(passed, k)
    ensures Lookup(passed, k) == Undefined && Lookup(stored, k) != Undefined ==>
              Lookup(Merge(Defaults(), stored, passed), k) == Lookup(stored, k)
    ensures Lookup(passed, k) == Undefined && Lookup(stored, k) == Undefined ==>
              Lookup(Merge(Defaults(), stored, passed), k) == Lookup(Defaults(), k)
  {
  }

  /** The page's shared containers: how many elements carry the
      `_smart_autocomplete_container` class. */
  datatype Page = Page(defaultContainers: nat)

  datatype Attached = Attached(page: Page, options: OptionMap)

  /** The container step: a truthy `resultsContainer` is kept; otherwise the
      option is pointed at the shared default container, which is appended
      to the page only when the page has none. */
  function AssignContainer(page: Page, o: OptionMap): (r: Attached)
    ensures Truthy(Lookup(o, "resultsContainer")) ==> r == Attached(page, o)
    ensures !Truthy(Lookup(o, "resultsContainer")) ==>
              r.options == o["resultsContainer" := Elem(DefaultContainerNode)]
    ensures r.page.defaultContainers ==
              if !Truthy(Lookup(o, "resultsContainer")) && page.defaultContainers < 1
              then page.defaultContainers + 1 else page.defaultContainers
  {
    if Truthy(Lookup(o, "resultsContainer")) then Attached(page, o)
    else
      var page' := if page.defaultContainers < 1 then Page(page.defaultContainers + 1) else page;
      Attached(page', o["resultsContainer" := Elem(DefaultContainerNode)])
  }

  /** Attaching the plugin to one field: merge, set the context, settle the
      container. The result is what is stored as the field's data. */
  function Attach(page: Page, field: nat, stored: OptionMap, passed: OptionMap): (r: Attached)
    ensures Lookup(r.options, "context") == Elem(FieldNode(field))
    ensures Truthy(Lookup(r.options, "resultsContainer"))
    ensures forall k :: k != "context" && k != "resultsContainer" ==>
              Lookup(r.options, k) == Lookup(Merge(Defaults(), stored, passed), k)
  {
    AssignContainer(page, Merge(Defaults(), stored, passed)["context" := Elem(FieldNode(field))])
  }

  /** The shared-container rule: a configured container is never replaced,
      a missing one becomes the shared default, and the page never holds
      more than one default container. */
  lemma AttachContainerRule(page: Page, field: nat, stored: OptionMap, passed: OptionMap)
    requires page.defaultContainers <= 1
    ensures var merged := Merge(Defaults(), stored, passed);
            var r := Attach(page, field, stored, passed);
            && (Truthy(Lookup(merged, "resultsContainer")) ==>
                  Lookup(r.options, "resultsContainer") == Lookup(merged, "resultsContainer")
                  && r.page == page)
            && (!Truthy(Lookup(merged, "resultsContainer")) ==>
                  Lookup(r.options, "resultsContainer") == Elem(DefaultContainerNode)
                  && r.page.defaultContainers == 1)
            && r.page.defaultContainers <= 1
  {
    var merged := Merge(Defaults(), stored, passed);
    var withContext := merged["context" := Elem(FieldNode(field))];
    assert Lookup(withContext, "resultsContainer") == Lookup(merged, "resultsContainer");
  }

  /** Attaching again keeps the container the first attachment settled on,
      and does not add a second default container. */
  lemma ReattachKeepsContainer(page: Page, field: nat, stored: OptionMap, passed: OptionMap, again: OptionMap)
    requires page.defaultContainers <= 1
    requires Lookup(again, "resultsContainer") == Undefined
    ensures var first := Attach(page, field, stored, passed);
            var second := Attach(first.page, field, first.options, again);
            && Lookup(second.options, "resultsContainer") == Lookup(first.options, "resultsContainer")
            && second.page == first.page
  {
    var first := Attach(page, field, stored, passed);
    var merged := Merge(Defaults(), first.options, again);
    assert Lookup(merged, "resultsContainer") == Lookup(first.options, "resultsContainer");
  }

  /** The no-argument call: the data stored on the first element of the
      selection, or `undefined` when the selection is empty or the element
      has no data. */
  function Get(data: map<nat, OptionMap>, selection: seq<nat>): (r: Option<OptionMap>)
    ensures r.Some? <==> |selection| > 0 && selection[0] in data
    ensures r.Some? ==> r.value == data[selection[0]]
  {
    if |selection| > 0 && selection[0] in data then Some(data[selection[0]]) else None
  }

  function StoredOf(data: map<nat, OptionMap>, field: nat): OptionMap {
    if field in data then data[field] else map[]
  }

  datatype AttachedAll = AttachedAll(page: Page, data: map<nat, OptionMap>)

  /** `this.each` as written: `$.extend` writes into the one `default_options`
      object created by the call, so every iteration extends the object the
      previous iteration left, and every field's data ends up being that same
      object. */
  function AttachAllAsWritten(page: Page, fields: seq<nat>, data: map<nat, OptionMap>, passed: OptionMap): (r: AttachedAll)
    ensures forall f :: f in r.data <==> f in data || f in fields
    ensures forall f, g :: f in fields && g in fields ==> r.data[f] == r.data[g]
  {
    var last := SharedFold(page, Defaults(), fields, data, passed);
    AttachedAll(last.page, data + map f | f in fields :: last.options)
  }

  function SharedFold(page: Page, shared: OptionMap, fields: seq<nat>, data: map<nat, OptionMap>, passed: OptionMap): (r: Attached)
    ensures page.defaultContainers <= 1 ==> r.page.defaultContainers <= 1
    ensures r.page.defaultContainers >= page.defaultContainers
    ensures fields != [] ==> Truthy(Lookup(r.options, "resultsContainer"))
    decreases |fields|
  {
    if fields == [] then Attached(page, shared)
    else
      var o := Merge(shared, StoredOf(data, fields[0]), passed)["context" := Elem(FieldNode(fields[0]))];
      var step := AssignContainer(page, o);
      SharedFold(step.page, step.options, fields[1..], data, passed)
  }

  /** The aliasing, shown on two fresh fields: the first field's stored
      option leaks into the second, and the first field's context becomes
      the second field, so its events act on the wrong element. */
  lemma SharedOptionsLeak()
    ensures var r := AttachAllAsWritten(Page(0), [1, 2], map[1 := map["minCharLimit" := Num(4)]], map[]);
            && Lookup(r.data[2], "minCharLimit") == Num(4)
            && Lookup(r.data[1], "context") == Elem(FieldNode(2))
  {
    var data := map[1 := map["minCharLimit" := Num(4)]];
    var o1 := Merge(Defaults(), StoredOf(data, 1), map[])["context" := Elem(FieldNode(1))];
    var s1 := AssignContainer(Page(0), o1);
    assert Lookup(s1.options, "minCharLimit") == Num(4);
    var o2 := Merge(s1.options, StoredOf(data, 2), map[])["context" := Elem(FieldNode(2))];
    var s2 := AssignContainer(s1.page, o2);
    assert Lookup(s2.options, "minCharLimit") == Num(4);
    assert [1, 2][1..] == [2];
    assert [2][1..] == [];
    assert SharedFold(Page(0), Defaults(), [1, 2], data, map[]) == s2;
  }

  /** `this.each` with a fresh defaults object per field, as intended: each
      field is attached on its own. */
  function AttachAll(page: Page, fields: seq<nat>, data: map<nat, OptionMap>, passed: OptionMap): (r: AttachedAll)
    ensures forall f :: f in r.data <==> f in data || f in fields
    ensures forall f :: f in data && f !in fields ==> r.data[f] == data[f]
    ensures page.defaultContainers <= 1 ==> r.page.defaultContainers <= 1
    decreases |fields|
  {
    if fields == [] then AttachedAll(page, data)
    else
      var one := Attach(page, fields[0], StoredOf(data, fields[0]), passed);
      assert Lookup(Merge(Defaults(), StoredOf(data, fields[0]), passed)["context" := Elem(FieldNode(fields[0]))], "resultsContainer")
          == Lookup(Merge(Defaults(), StoredOf(data, fields[0]), passed), "resultsContainer");
      AttachAll(one.page, fields[1..], data[fields[0] := one.options], passed)
  }

  /** With the fix, every field of the selection gets its own options: its
      own context and, for every other key, the merge of the defaults, its
      own stored options and the passed ones. */
  lemma {:induction false} AttachAllPerField(page: Page, fields: seq<nat>, data: map<nat, OptionMap>, passed: OptionMap, f: nat, k: string)
    requires forall i, j :: 0 <= i < j < |fields| ==> fields[i] != fields[j]
    requires f in fields
    requires k != "context" && k != "resultsContainer"
    ensures var r := AttachAll(page, fields, data, passed);
            && Lookup(r.data[f], "context") == Elem(FieldNode(f))
            && Lookup(r.data[f], k) == Lookup(Merge(Defaults(), StoredOf(data, f), passed), k)
    decreases |fields|
  {
    var one := Attach(page, fields[0], StoredOf(data, fields[0]), passed);
    var data' := data[fields[0] := one.options];
    if f == fields[0] {
      assert f !in fields[1..];
      assert AttachAll(page, fields, data, passed) == AttachAll(one.page, fields[1..], data', passed);
    } else {
      assert f in fields[1..];
      assert StoredOf(data', f) == StoredOf(data, f);
      AttachAllPerField(one.page, fields[1..], data', passed, f, k);
    }
  }

  /** Read-back after the corrected attach: the getter on the selection
      returns the first field's options, with that field as context and
      every other key as the merge resolves it for that field. */
  lemma AttachThenGet(page: Page, fields: seq<nat>, data: map<nat, OptionMap>, passed: OptionMap, k: string)
    requires forall i, j :: 0 <= i < j < |fields| ==> fields[i] != fields[j]
    requires |fields| > 0
    requires k != "context" && k != "resultsContainer"
    ensures var g := Get(AttachAll(page, fields, data, passed).data, fields);
            && g.Some?
            && Lookup(g.value, "context") == Elem(FieldNode(fields[0]))
            && Lookup(g.value, k) == Lookup(Merge(Defaults(), StoredOf(data, fields[0]), passed), k)
  {
    AttachAllPerField(page, fields, data, passed, fields[0], k);
  }

  /** The shared object's context is the field attached last. */
  lemma {:induction false} SharedFoldContext(page: Page, shared: OptionMap, fields: seq<nat>, data: map<nat, OptionMap>, passed: OptionMap)
    requires |fields| > 0
    ensures Lookup(SharedFold(page, shared, fields, data, passed).options, "context") == Elem(FieldNode(fields[|fields| - 1]))
    decreases |fields|
  {
    var o := Merge(shared, StoredOf(data, fields[0]), passed)["context" := Elem(FieldNode(fields[0]))];
    var step := AssignContainer(page, o);
    assert Lookup(step.options, "context") == Elem(FieldNode(fields[0]));
    if |fields| > 1 {
      SharedFoldContext(step.page, step.options, fields[1..], data, passed);
      assert fields[1..][|fields[1..]| - 1] == fields[|fields| - 1];
    }
  }

  /** Read-back after the attach as written: the getter on the selection
      reports the last field as the context, so for two or more distinct
      fields the first field's options point at another field. */
  lemma AsWrittenGetSeesLastField(page: Page, fields: seq<nat>, data: map<nat, OptionMap>, passed: OptionMap)
    requires |fields| > 0
    ensures var g := Get(AttachAllAsWritten(page, fields, data, passed).data, fields);
            && g.Some?
            && Lookup(g.value, "context") == Elem(FieldNode(fields[|fields| - 1]))
            && (fields[0] != fields[|fields| - 1] ==> Lookup(g.value, "context") != Elem(FieldNode(fields[0])))
  {
    SharedFoldContext(page, Defaults(), fields, data, passed);
    assert fields[0] in fields;
  }
}

=== FILE: scenarios.dfy ===
/** Concrete runs of the model on the inputs the repository's own test
    suite uses, stated as lemmas. */
module Scenarios {
  import opened Options
  import opened Controller
  import Filter
  import JsArray
  import Matching

  const Words: seq<string> := ["test", "table", "tea", "tree", "abc"]

  /** Which of the words the query `t` matches. */
  lemma WordsMatchingT()
    ensures Matching.RegexTest("t", "test") && Matching.RegexTest("t", "table")
    ensures Matching.RegexTest("t", "tea") && Matching.RegexTest("t", "tree")
    ensures !Matching.RegexTest("t", "abc")
  {
    assert Matching.Fold("t") == "t";
    assert Matching.OccursAt(Matching.Fold("t"), Matching.Fold("test"), 0);
    assert Matching.OccursAt(Matching.Fold("t"), Matching.Fold("table"), 0);
    assert Matching.OccursAt(Matching.Fold("t"), Matching.Fold("tea"), 0);
    assert Matching.OccursAt(Matching.Fold("t"), Matching.Fold("tree"), 0);
    assert Matching.Fold("abc") == "abc";
  }

  /** A list whose every candidate matches passes the filter whole. */
  lemma {:induction false} AllMatchingKept(q: string, s: seq<string>)
    requires forall i :: 0 <= i < |s| ==> Matching.Matches(q, s[i])
    ensures Matching.Grep(q, s) == s
  {
    if s != [] {
      AllMatchingKept(q, s[1..]);
      Matching.GrepDistributes(q, [s[0]], s[1..]);
      Matching.GrepSingleton(q, s[0]);
      assert [s[0]] + s[1..] == s;
    }
  }

  /** Matching candidates followed by one that does not match: the filter
      keeps exactly the matching ones, in order. */
  lemma KeepsAllButLast(q: string, s: seq<string>, e: string)
    requires forall i :: 0 <= i < |s| ==> Matching.Matches(q, s[i])
    requires !Matching.Matches(q, e)
    ensures Matching.Grep(q, s + [e]) == s
  {
    AllMatchingKept(q, s);
    Matching.GrepDistributes(q, s, [e]);
    Matching.GrepSingleton(q, e);
  }

  /** Query `t` keeps the four words containing a `t`; a cap of 2 keeps
      the first two of them. */
  lemma DefaultFilterExample()
    ensures Matching.Grep("t", Words) == ["test", "table", "tea", "tree"]
    ensures JsArray.Truncate(Matching.Grep("t", Words), 2) == ["test", "table"]
  {
    var matching := ["test", "table", "tea", "tree"];
    forall i | 0 <= i < |matching|
      ensures Matching.Matches("t", matching[i])
    {
      assert Matching.OccursAt(Matching.Fold("t"), Matching.Fold(matching[i]), 0);
    }
    assert !Matching.Matches("t", "abc") by {
      WordsMatchingT();
    }
    KeepsAllButLast("t", matching, "abc");
    assert matching + ["abc"] == Words;
  }

  /** Attaching with no options stores the documented defaults. */
  lemma AttachStoresDefaults(page: Page, field: nat)
    ensures var o := Attach(page, field, map[], map[]).options;
            && Lookup(o, "minCharLimit") == Num(2)
            && Lookup(o, "maxResults") == Num(-1)
            && Lookup(o, "delay") == Num(300)
            && Lookup(o, "typeAhead") == Bool(false)
            && Lookup(o, "disabled") == Bool(false)
            && Lookup(o, "forceSelect") == Bool(false)
  {
    DefaultValues();
    MergePrecedence(map[], map[], "minCharLimit");
    MergePrecedence(map[], map[], "maxResults");
    MergePrecedence(map[], map[], "delay");
    MergePrecedence(map[], map[], "typeAhead");
    MergePrecedence(map[], map[], "disabled");
    MergePrecedence(map[], map[], "forceSelect");
  }

  /** A value passed to the call wins over the default. */
  lemma AttachPassedWins(page: Page, field: nat)
    ensures Lookup(Attach(page, field, map[], map["maxResults" := Num(10)]).options, "maxResults") == Num(10)
  {
    MergePrecedence(map[], map["maxResults" := Num(10)], "maxResults");
  }

  /** A value stored on the element beforehand wins over the default. */
  lemma AttachStoredWins(page: Page, field: nat)
    ensures Lookup(Attach(page, field, map["minCharLimit" := Num(4)], map[]).options, "minCharLimit") == Num(4)
  {
    MergePrecedence(map["minCharLimit" := Num(4)], map[], "minCharLimit");
  }

  /** `filterReady` with `a`, `b`, `c` and a formatter returning its
      argument replaces the container's earlier content when `clearResults`
      is the built-in one and `showResults` (the built-in one, say) leaves
      the content alone: its HTML is `abc`. */
  lemma FilterReadyReplacesEarlierResults(f: Field)
    requires !Disabled(f)
    requires Lookup(f.options, "resultFormatter") == Fn(UserFn(0))
    requires Lookup(f.options, "clearResults") == Fn(BuiltinFn(ClearFn))
    requires KeepsContainer(Lookup(f.options, "showResults"))
    requires f.container == ["<span class='smart_autocomplete_result'>test</span>"]
    ensures Html(Trigger(f, FilterReadyEv(["a", "b", "c"]), (h, r) => r).field.container) == "abc"
  {
    var r := Trigger(f, FilterReadyEv(["a", "b", "c"]), (h, r) => r);
    var html := FormatAll(UserFn(0), (h, r) => r, ["a", "b", "c"]);
    assert html == ["a", "b", "c"];
    assert r.field.container == html;
    assert Html(["c"]) == "c";
    assert Html(["b", "c"]) == "b" + Html(["c"]);
    assert Html(["a", "b", "c"]) == "a" + Html(["b", "c"]);
  }

  /** An empty result list fires `noMatch` and not `showResults`. With a
      listener of the caller's own bound for `noMatch`, as the test binds
      one, the built-in does not run and the field is left as it was. */
  lemma EmptyResultsFireNoMatch(f: Field, user: Formatters)
    requires !Disabled(f)
    ensures var r := Trigger(f, FilterReadyEv([]), user);
            && Fired(Overridable(NoMatch)) in r.steps
            && Fired(Overridable(ShowResults)) !in r.steps
            && (!DefaultRuns(f.listeners, NoMatch) ==> r.field == f)
  {
    var r := OnFilterReady(f, [], user);
    assert r == Dispatch(f, NoMatch, "");
  }

  /** Calling the built-in `noMatch` directly, with the built-in
      `clearResults`, leaves only the notice in the container, whatever it
      held before. */
  lemma NoMatchShowsNotice(f: Field)
    requires Lookup(f.options, "noMatch") == Fn(BuiltinFn(NoMatchFn))
    requires Lookup(f.options, "clearResults") == Fn(BuiltinFn(ClearFn))
    ensures var r := CallOption(f, NoMatch, "");
            r.Done? && r.field.container == [NoResultsItem] && Html(r.field.container) == NoResultsItem
  {
    assert Html([NoResultsItem]) == NoResultsItem + Html([]);
  }

  /** A custom filter is called with the query and the source as given,
      here the string `test`. */
  lemma CustomFilterReceivesQueryAndSource(f: Field, user: Formatters)
    requires !Disabled(f)
    requires Lookup(f.options, "filter") == Fn(UserFn(1))
    requires Lookup(f.options, "source") == Str("test")
    ensures Trigger(f, KeyInEv("t"), user) == Done(f, [Fired(KeyIn), FilterCalled(UserFn(1), "t", Str("test"))])
  {
  }

  /** Calling the built-in `itemSelect` directly on a field attached on
      its own (its context is the field) puts the selected item's text in
      the field. */
  lemma SelectingSetsFieldValue(f: Field)
    requires Lookup(f.options, "itemSelect") == Fn(BuiltinFn(SelectFn))
    requires Lookup(f.options, "context") == Elem(FieldNode(f.self))
    ensures CallOption(f, ItemSelect, "I was selected!") == Done(f.(value := "I was selected!"), [])
  {
  }
}

=== FILE: wrappers.dfy ===
/** The optional value shared by the other modules. */
module Wrappers {
  datatype Option<T> = None | Some(value: T)
}
